=== FILE: README.md ===
# Stock management: orders, stock and the catalog, modelled in Dafny

This project models the order and stock core of the StockManagement web
application, an ASP.NET Core MVC shop backed by Entity Framework Core on
SQL Server. Customers place and cancel orders. Managers change order
statuses, create, edit and delete products, and adjust stock. The home page
lists recent and popular products.

The database is an immutable `Store` value (module `Db`):

- the four tables as maps keyed by their primary keys (`OrderItem` by the
  composite `ItemKey(orderId, productId)`);
- the next values of the two identity columns;
- the key, foreign-key and delete-behaviour rules of `AppDbContext`.

Every controller action that writes is a pure function from a store and its
inputs to a `Step(reply, store)`. The reply names the outcome the action
reports: a redirect with a message, `NotFound`, a refused save, or an
exception. The two query actions, `Orders.ManageOrders` and `Home.HomeIndex`,
are functions from a table to the list the page shows. Their `table`
parameter is the rows of the Orders or Products table as a sequence, in the
order the database returns them. The model leaves that order open and does
not tie the sequence to the store's maps.

C# `int` arithmetic is unchecked, so Quantity, PurchaseCount and line
quantities are 32-bit values. Every addition to them that could leave the
int32 range goes through `Int32.Wrap`.

The central property is the stock ledger (module `Ledger`). An order is
live unless its Status is "Cancelled". The live units of a product are the
quantities on its lines in live orders. Two invariants tie the counters to
the live units:

- `CountsLive`: PurchaseCount is a per-product start value plus the live
  units.
- `StockNetOfLive`: Quantity is a start value less the live units.

Both are taken modulo 2^32.

The following keep both invariants:

- placing an order, whether it succeeds or fails halfway;
- a customer's cancellation;
- a status change between statuses other than "Cancelled";
- deleting a product.

A new product extends the ledger, and AdjustStock moves the stock start
value by exactly the adjustment. A manager's "Cancelled" status change
keeps the stock invariant but breaks the count invariant. Repeating it
breaks the stock invariant too (see Findings).

Modules, in dependency order:

- `Int32`: the int32 range, wrap-around, and the modular facts the ledger needs.
- `Text`: lower-casing, and string equality as SQL Server evaluates it.
- `Models`: Product, Order, OrderItem and User, their initialisers, and Product equality.
- `Db`: the store, delete behaviours, consistency and the seeded data.
- `Sorting`: Where, OrderBy/OrderByDescending (as a sorted permutation) and Take.
- `Ledger`: live units, the two invariants and their balances.
- `Orders`: CreateOrder, Cancel, UpdateStatus and ManageOrders.
- `OrderLaws`: round trips, ledger preservation, the findings, and the corrected UpdateStatus.
- `Catalog`: the image check, Create, Edit, AdjustStock and DeleteConfirmed.
- `Home`: the home page query.

The model follows the code, including these places where its behaviour may
surprise:

- A second Cancel of the same order answers NotFound, not an
  invalid-transition error. The order lookup itself filters on Status ==
  "Pending".
- UpdateStatus stores any status string, with no transition check.
- AdjustStock has no lower bound, so stock can go negative.
- The Status filters of Cancel and ManageOrders run in SQL Server, whose `=`
  ignores trailing blanks and, under the default collation, letter case. A
  status stored as "Pending " or "pending" therefore counts as Pending
  there, while UpdateStatus's own test for "Cancelled" is an exact C#
  comparison.
- An Edit posted with Id 0 inserts a new product instead of answering
  NotFound: EF Core's `Update` treats an entity whose generated key is
  unset as new.

## Model

| member | source | states |
|---|---|---|
| Int32.Wrap | StockManagement/Controllers/OrderController.cs:166-167 | unchecked int addition: a value already in the int32 range is kept unchanged |
| Int32.WrapIsCongruent | StockManagement/Controllers/ProductController.cs:172 | the wrapped result agrees with the exact sum modulo 2^32 |
| Int32.Negate | StockManagement/Controllers/ProductController.cs:172 | every int32 adjustment has an int32 inverse that brings the sum back to 0 modulo 2^32 |
| Int32.NegateUndoes | StockManagement/Controllers/ProductController.cs:172 | adding an int32 and then its negation under wrap-around gives back the starting value |
| Models.NewProduct | StockManagement/Models/Product.cs:19-23 | a new Product has the placeholder image, zero quantity, price and PurchaseCount, and LastPurchasedDate set to the clock |
| Models.NewOrder | StockManagement/Models/Order.cs:10 | a new Order starts with status "Pending" |
| Models.EqualsNullIsFalse | StockManagement/Models/Product.cs:29-35 | a product never equals null, whether typed as a Product or as an object |
| Models.EqualsIffSameId | StockManagement/Models/Product.cs:29-35 | two products are equal exactly when their Ids are, whatever their other fields |
| Models.EqualsNonProductIsFalse | StockManagement/Models/Product.cs:35 | a product never equals an object of another type |
| Models.EqualProductsHashAlike | StockManagement/Models/Product.cs:29-36 | equal products have equal hash codes |
| Models.EqualsIsEquivalence | StockManagement/Models/Product.cs:29-33 | Equals is reflexive, symmetric and transitive on non-null products |
| Db.DeleteOrder | StockManagement/Data/AppDbContext.cs:31-35 | deleting an order removes exactly its lines (cascade), leaves every other order, line, product, user and identity counter unchanged, and keeps the store consistent |
| Db.DeleteProduct | StockManagement/Data/AppDbContext.cs:38-42 | deleting an existing product is refused exactly when a line references it, and otherwise succeeds with only the product gone |
| Db.DeleteUser | StockManagement/Data/AppDbContext.cs:45-49 | deleting an existing user is refused exactly when an order references them, and otherwise succeeds with only the user gone |
| Db.SeedUsers | StockManagement/Data/AppDbContext.cs:52-74 | the seeded users have Ids 1 to 3, each stored under its Id |
| Db.SeedProducts | StockManagement/Data/AppDbContext.cs:76-189 | the seeded products have Ids 1 to 10, each under its Id, with non-negative Quantity and PurchaseCount |
| Db.SeedOrders | StockManagement/Data/AppDbContext.cs:192-207 | the two seeded orders belong to user 2 and are Pending or Processing |
| Db.SeedItems | StockManagement/Data/AppDbContext.cs:209-231 | the seeded lines belong to orders 1 and 2, name products 1 to 10, and have positive quantities |
| Db.Seed | StockManagement/Data/AppDbContext.cs:51-231 | the seeded database is consistent: keys match Ids, and every foreign key names an existing row |
| Db.SeedPricesMatch | StockManagement/Data/AppDbContext.cs:209-231 | every seeded line is priced at its product's seeded price |
| Sorting.Sort | StockManagement/Controllers/HomeController.cs:23 | OrderBy and OrderByDescending give a permutation of their input that is sorted by the key |
| Sorting.Filter | StockManagement/Controllers/OrderController.cs:51 | Where keeps exactly the elements that satisfy the predicate, each with its multiplicity |
| Sorting.Take | StockManagement/Controllers/HomeController.cs:29 | Take(n) gives a prefix of length min(n, count) |
| Sorting.PrefixPrecedesRest | StockManagement/Controllers/HomeController.cs:27-30 | in a sorted sequence, every element of a prefix may precede every element the prefix leaves out |
| Ledger.ShiftKeepsBalances | StockManagement/Controllers/OrderController.cs:166-167 | moving d units into live orders while taking d off Quantity and adding d to PurchaseCount keeps both ledger balances |
| Ledger.SoldBalancesKeepCounts | StockManagement/Controllers/OrderController.cs:166-167 | a change that keeps every product's sold balance keeps PurchaseCount counting the live units |
| Ledger.StockBalancesKeepStock | StockManagement/Controllers/OrderController.cs:166-167 | a change that keeps every product's stock balance keeps Quantity net of the live units |
| Ledger.ReplaceProductKeepsLedger | StockManagement/Controllers/ProductController.cs:145-146 | rewriting one product's row with its PurchaseCount kept keeps the count invariant, and the stock invariant against a start value re-based on the new Quantity |
| Ledger.AddProductExtendsLedger | StockManagement/Controllers/ProductController.cs:76-78 | a new row with PurchaseCount 0 and no lines extends both invariants with start values 0 and its Quantity |
| Ledger.CountsLiveAtBalances | StockManagement/Data/AppDbContext.cs:76-231 | any store, the seeded one included, satisfies the count invariant with its own balances as start values |
| Ledger.StockNetOfLiveAtBalances | StockManagement/Data/AppDbContext.cs:76-231 | any store satisfies the stock invariant with its own balances as start values |
| Orders.Restock | StockManagement/Controllers/OrderController.cs:206-211 | a released line adds its quantity back to Quantity, and for Cancel also takes it off PurchaseCount; no other field changes |
| Orders.ReleaseLines | StockManagement/Controllers/OrderController.cs:204-212 | every product with a line in the order is restocked by that line, every other product is unchanged, and no product is added or removed |
| Orders.CreateOrder | StockManagement/Controllers/OrderController.cs:111-180 | checks run in order: quantity, then product, then stock. An order is created iff all pass, the user exists and the second save succeeds. An unknown user fails the first save and changes nothing. It gets the next key, status Pending and one line at the current price. In the ordered product Quantity drops and PurchaseCount rises by exactly the quantity, LastPurchasedDate becomes now, and no other field changes. A failed second save answers SaveFailed and leaves the new order without lines, with nothing else changed |
| Orders.CreateOrderKeepsConsistent | StockManagement/Controllers/OrderController.cs:146-170 | whatever CreateOrder answers, keys and foreign keys stay intact |
| Orders.PendingAsSqlServerCompares | StockManagement/Controllers/OrderController.cs:195 | SQL Server's `=` takes "Pending " and "pending" for "Pending", but not "Cancelled" or "Processing" |
| Orders.CancellableIsLive | StockManagement/Controllers/OrderController.cs:195 | an order Cancel finds is not Cancelled, since "Cancelled" never matches "Pending" even in SQL Server |
| Orders.Cancel | StockManagement/Controllers/OrderController.cs:184-225 | NotFound unless the order exists, is the caller's and its status equals "Pending" as SQL Server compares. Otherwise the status becomes Cancelled, and every line goes back to Quantity and off PurchaseCount with every other field of the product kept; other products are unchanged |
| Orders.CancelKeepsConsistent | StockManagement/Controllers/OrderController.cs:202-215 | Cancel keeps keys and foreign keys intact |
| Orders.UpdateStatus | StockManagement/Controllers/OrderController.cs:61-83 | NotFound for an unknown order. Otherwise any string is stored as the status. "Cancelled", compared exactly, adds every line back to Quantity and changes no other field of any product, and fails when a line's product is gone |
| Orders.UpdateStatusKeepsConsistent | StockManagement/Controllers/OrderController.cs:67-79 | UpdateStatus keeps keys and foreign keys intact |
| Orders.UpdateStatusTotalWhenConsistent | StockManagement/Controllers/OrderController.cs:71-75 | in a consistent store every line's product exists, so UpdateStatus on an existing order always succeeds |
| Orders.ManageOrders | StockManagement/Controllers/OrderController.cs:47-53 | the manager's list holds exactly the orders whose status equals "Pending" as SQL Server compares, each with its multiplicity, oldest first |
| OrderLaws.CreatedIsCancellable | StockManagement/Controllers/OrderController.cs:146-170 | the order just placed is the caller's and Pending, and its only line is the one ordered |
| OrderLaws.CreateThenCancelRestores | StockManagement/Controllers/OrderController.cs:204-214 | placing an order and then cancelling it restores the product's Quantity and PurchaseCount and every other product |
| OrderLaws.CreateThenCancelProduct | StockManagement/Controllers/OrderController.cs:166-167 | the ordered product's two counters come back after the cancellation |
| OrderLaws.CancelUndoesLine | StockManagement/Controllers/OrderController.cs:209-210 | cancelling a line of q units undoes a stock decrease and a count increase of q, even across wrap-around |
| OrderLaws.CreateThenCancelOther | StockManagement/Controllers/OrderController.cs:204-214 | products not ordered are unchanged by placing and cancelling |
| OrderLaws.SeedOrderPlaces | StockManagement/Data/AppDbContext.cs:101-111 | in the seeded store, 2 units of product 3 take Quantity from 50 to 48 and PurchaseCount from 65 to 67, on a line priced 49.99 |
| OrderLaws.SeedOrderThenCancel | StockManagement/Controllers/OrderController.cs:204-214 | cancelling that order gives back 50 and 65 |
| OrderLaws.CancelTwiceIsNoop | StockManagement/Controllers/OrderController.cs:192-200 | a second Cancel of the same order answers NotFound and changes nothing |
| OrderLaws.PaddedPendingIsCancellable | StockManagement/Controllers/OrderController.cs:51 | after UpdateStatus stores "Pending ", the order is on the manager's list and its owner can cancel it, whatever its status was |
| OrderLaws.UpdateStatusReleasesTwice | StockManagement/Controllers/OrderController.cs:69-78 | two "Cancelled" status changes put every line back to stock twice |
| OrderLaws.ReleasesTwiceAt | StockManagement/Controllers/OrderController.cs:71-75 | for one product, the second release adds the line quantity a second time |
| OrderLaws.UpdateStatusCancelRestocksAt | StockManagement/Controllers/OrderController.cs:71-75 | one "Cancelled" status change restocks a product by its line and keeps the order's lines |
| OrderLaws.CreateOrderLiveUnits | StockManagement/Controllers/OrderController.cs:146-170 | placing an order adds exactly its quantity to the live units of the ordered product and nothing to others |
| OrderLaws.CreateOrderBalancesAt | StockManagement/Controllers/OrderController.cs:156-168 | placing an order keeps both ledger balances of every product |
| OrderLaws.CreateOrderKeepsLedger | StockManagement/Controllers/OrderController.cs:111-180 | placing an order, or failing to, keeps both ledger invariants |
| OrderLaws.CancelBalancesAt | StockManagement/Controllers/OrderController.cs:204-214 | Cancel keeps both ledger balances of every product |
| OrderLaws.CancelKeepsLedger | StockManagement/Controllers/OrderController.cs:184-225 | Cancel keeps both ledger invariants |
| OrderLaws.UpdateStatusLiveKeepsLedger | StockManagement/Controllers/OrderController.cs:78-79 | a status change between two statuses other than "Cancelled" keeps both ledger invariants |
| OrderLaws.UpdateStatusCancelUnitsAt | StockManagement/Controllers/OrderController.cs:69-78 | "Cancelled" on a live order removes its lines from the live units and keeps the stock balance |
| OrderLaws.UpdateStatusCancelKeepsStock | StockManagement/Controllers/OrderController.cs:69-78 | "Cancelled" on a live order keeps Quantity net of the live units |
| OrderLaws.UpdateStatusCancelBreaksCounts | StockManagement/Controllers/OrderController.cs:71-75 | "Cancelled" on a live order with a non-empty line breaks the count invariant |
| OrderLaws.UpdateStatusRecancelBreaksStock | StockManagement/Controllers/OrderController.cs:69-76 | "Cancelled" on an order that is already cancelled breaks the stock invariant |
| OrderLaws.UpdateStatusRevivalBreaksStock | StockManagement/Controllers/OrderController.cs:69-78 | changing a cancelled order's status to anything else makes its lines live again without taking them out of stock, which breaks the stock invariant |
| OrderLaws.RestockedTwiceBreaksStock | StockManagement/Controllers/OrderController.cs:74 | stock that comes back while the live units stay put leaves Quantity off the ledger |
| OrderLaws.UpdateStatusGuarded | StockManagement/Controllers/OrderController.cs:61-83 | corrected status change: a Cancelled order is final. "Cancelled" returns every line to Quantity and takes it off PurchaseCount, with every other field and product kept; any other status leaves the products as they were |
| OrderLaws.UpdateStatusGuardedCancelIsCancel | StockManagement/Controllers/OrderController.cs:204-214 | on a customer's own Pending order, the corrected "Cancelled" gives the same reply and store as the customer's Cancel |
| OrderLaws.UpdateStatusGuardedKeepsConsistent | StockManagement/Controllers/OrderController.cs:67-79 | the corrected status change keeps keys and foreign keys intact |
| OrderLaws.UpdateStatusGuardedBalancesAt | StockManagement/Controllers/OrderController.cs:69-78 | the corrected status change keeps both ledger balances of every product |
| OrderLaws.UpdateStatusGuardedKeepsLedger | StockManagement/Controllers/OrderController.cs:61-83 | the corrected status change keeps both ledger invariants, whatever status it is given |
| OrderLaws.UpdateStatusGuardedRecancelIsNoop | StockManagement/Controllers/OrderController.cs:69-76 | with the correction, a second "Cancelled" is refused and releases nothing |
| Text.LowerAscii | StockManagement/Controllers/ProductController.cs:52 | ToLowerInvariant maps every character on its own and keeps the length |
| Text.TrimEndBlanks | StockManagement/Controllers/OrderController.cs:51 | the trimmed string is a prefix that does not end in a blank, and everything after it is blanks |
| Text.TrimIgnoresPadding | StockManagement/Controllers/OrderController.cs:51 | appending blanks does not change what a string trims to |
| Text.SqlEqualsIgnoresPadding | StockManagement/Controllers/OrderController.cs:195 | SQL Server's `=` gives the same answer with or without trailing blanks on an operand |
| Text.BlanksEqualEmpty | StockManagement/Controllers/OrderController.cs:195 | to SQL Server's `=` a string of blanks equals the empty string |
| Catalog.ExtensionFromFindsLastDot | StockManagement/Controllers/ProductController.cs:52 | the GetExtension scan returns the suffix from the dot that starts an extension, or "" when none does |
| Catalog.ExtensionIsLastDotSuffix | StockManagement/Controllers/ProductController.cs:52 | GetExtension is the suffix from the last dot that is not final and not followed by a separator, or "" |
| Catalog.CheckImage | StockManagement/Controllers/ProductController.cs:42-63 | no file or an empty file is skipped. A file is accepted iff its lower-cased extension is .jpg, .jpeg, .png or .gif and it is at most 5 MB, and is then stored under that extension. Otherwise it is rejected, the extension checked first |
| Catalog.EndingGivesExtension | StockManagement/Controllers/ProductController.cs:51-53 | a name ending in an allowed extension, in any case, has that extension |
| Catalog.ExtensionAllowedIffEndsWith | StockManagement/Controllers/ProductController.cs:51-53 | the extension test passes exactly for names ending, in any case, in an allowed extension |
| Catalog.ImageCheckCaseAndSize | StockManagement/Controllers/ProductController.cs:51-63 | "Photo.JPG" is accepted as ".jpg"; a png one byte over 5 MB is rejected as too large |
| Catalog.ImageCheckRejectsOtherNames | StockManagement/Controllers/ProductController.cs:51-57 | "photo.png.exe", "photo." and "dir.png/photo" are rejected for their extension |
| Catalog.Create | StockManagement/Controllers/ProductController.cs:37-83 | an invalid form or a rejected file changes nothing. Otherwise a product is inserted under the next key, with the posted fields, PurchaseCount 0, LastPurchasedDate now and the stored image or the placeholder; the store stays consistent |
| Catalog.CreateExtendsLedger | StockManagement/Controllers/ProductController.cs:76-78 | a new product has no lines, so the ledger extends to it with start values 0 and its Quantity |
| Catalog.EditKeepingCounters | StockManagement/Controllers/ProductController.cs:96-163 | corrected edit: NotFound on an id mismatch or a missing non-zero Id; an invalid form or a rejected file changes nothing. Id 0 inserts a new row under the next key, with PurchaseCount 0 and LastPurchasedDate now. Otherwise the posted fields and image are saved, and the Id, PurchaseCount and LastPurchasedDate are kept |
| Catalog.Edit | StockManagement/Controllers/ProductController.cs:96-163 | as written: the same outcomes as the corrected edit, but an existing row is overwritten by the bound product, with PurchaseCount 0 and LastPurchasedDate now |
| Catalog.EditZeroIsCreate | StockManagement/Controllers/ProductController.cs:96-146 | an Edit posted with Id 0 stores what Create stores for the same form, except that without a stored file the new row keeps the posted ImageUrl where Create puts the placeholder; it reports success where Create reports the new key, and an invalid form or a rejected file is refused by both alike |
| Catalog.EditUnchangedResetsCount | StockManagement/Controllers/ProductController.cs:145-146 | as written, saving a product's page unchanged zeroes its PurchaseCount and stamps LastPurchasedDate with the save time |
| Catalog.EditForgetsSales | StockManagement/Controllers/ProductController.cs:145-146 | as written, that breaks the count invariant for any product whose PurchaseCount was not 0 |
| Catalog.SeedEditForgetsSales | StockManagement/Controllers/ProductController.cs:145-146 | in the seeded store, product 3's PurchaseCount of 65 becomes 0 |
| Catalog.EditUnchangedFormIsNoop | StockManagement/Controllers/ProductController.cs:145-146 | with the correction, saving a product's page unchanged leaves the store as it was |
| Catalog.EditKeepsLedger | StockManagement/Controllers/ProductController.cs:145-146 | with the correction, an edit of an existing row keeps the count invariant, and the stock invariant against a start value re-based on the posted Quantity; an edit with Id 0 extends the ledger as Create does |
| Catalog.AdjustStock | StockManagement/Controllers/ProductController.cs:167-177 | NotFound for an unknown product. Otherwise only its Quantity changes, by the adjustment under int32 wrap-around |
| Catalog.AdjustStockRoundTrip | StockManagement/Controllers/ProductController.cs:172 | adjusting by a and then by its negation gives the store back |
| Catalog.AdjustStockCanGoNegative | StockManagement/Controllers/ProductController.cs:172 | nothing stops Quantity going below zero |
| Catalog.SeedAdjustBelowZero | StockManagement/Controllers/ProductController.cs:172 | taking 51 units off the 50 seeded Fire TV Sticks 4K leaves -1 |
| Catalog.AdjustStockKeepsLiveUnits | StockManagement/Controllers/ProductController.cs:169-173 | AdjustStock changes no product's live units |
| Catalog.AdjustStockKeepsCounts | StockManagement/Controllers/ProductController.cs:169-173 | AdjustStock keeps the count invariant |
| Catalog.AdjustStockShiftsStock | StockManagement/Controllers/ProductController.cs:169-173 | AdjustStock keeps the stock invariant against a start value moved by exactly the adjustment |
| Catalog.AdjustStockShiftsStockAt | StockManagement/Controllers/ProductController.cs:172 | per product: only the adjusted product's start value moves |
| Catalog.RemoveLinesOf | StockManagement/Controllers/ProductController.cs:215 | removing a product's lines keeps exactly the other lines, unchanged, and nothing else |
| Catalog.DeleteConfirmed | StockManagement/Controllers/ProductController.cs:194-227 | NotFound for an unknown product. Otherwise the product and exactly its lines go, other rows are unchanged, and the store stays consistent |
| Catalog.DeleteConfirmedIsRestrictedDelete | StockManagement/Controllers/ProductController.cs:215-217 | with its lines removed first, the delete passes the restrict rule, and the result is the database's own product delete |
| Catalog.DeleteConfirmedKeepsLedger | StockManagement/Controllers/ProductController.cs:214-217 | deleting a product keeps both ledger invariants for the products that remain |
| Home.RecentProducts | StockManagement/Controllers/HomeController.cs:21-24 | exactly the products bought in the last ten days, each with its multiplicity, newest first |
| Home.PopularProducts | StockManagement/Controllers/HomeController.cs:27-30 | at most ten products from the table, largest PurchaseCount first; all of them when there are at most ten |
| Home.PopularIsTopTen | StockManagement/Controllers/HomeController.cs:27-30 | no product left out of the popular list has a larger PurchaseCount than one in it |
| Home.DistinctFrom | StockManagement/Controllers/HomeController.cs:33-35 | deduplication keeps only elements of its input whose Id was not seen before |
| Home.DistinctFromIds | StockManagement/Controllers/HomeController.cs:33-35 | deduplication keeps one element for every Id of its input not yet seen |
| Home.DistinctFromUniqueIds | StockManagement/Controllers/HomeController.cs:33-35 | the result of deduplication never repeats an Id |
| Home.DistinctFromUnique | StockManagement/Controllers/HomeController.cs:35 | on a sequence without repeated Ids, deduplication changes nothing |
| Home.DistinctIsIdempotent | StockManagement/Controllers/HomeController.cs:34-35 | Distinct after Distinct (as after Union) is Distinct |
| Home.UniqueIdsByIndex | StockManagement/Controllers/HomeController.cs:33-38 | in a sequence without repeated Ids, no two positions hold the same Id |
| Home.PermutationKeepsIds | StockManagement/Controllers/HomeController.cs:36-37 | reordering keeps the elements, their Ids and their uniqueness |
| Home.HasIdConcat | StockManagement/Controllers/HomeController.cs:33-34 | an Id occurs in a concatenation iff it occurs in one of the parts |
| Home.RecencyThenPopularityIsTotal | StockManagement/Controllers/HomeController.cs:36-37 | ordering by LastPurchasedDate then PurchaseCount, both descending, is a total preorder |
| Home.Merged | StockManagement/Controllers/HomeController.cs:33-35 | the union of the two lists holds each product Id of either list exactly once, and nothing else |
| Home.HomeIndex | StockManagement/Controllers/HomeController.cs:18-45 | the home page shows each Id of the recent and popular lists once, newest purchase first and then most bought |

## Left out

- Authorization: the `[Authorize]` attributes, roles, the antiforgery token and the login redirect are not modelled. The caller's user id is an input.
- Files and identifiers: writing, deleting and naming uploaded image files, `Directory.CreateDirectory` and `Guid.NewGuid` are left out. The GUID string is the input `stem`.
- The clock: `DateTime.Now` is the input `now`, in whole seconds. DateTime arithmetic is plain integer arithmetic on seconds, with `Day` = 86400.
- TempData messages, views and redirects: the reply names the outcome only.
- The read-only actions ProductController.Index, OrderController.Index, and the GET forms of Create, Edit, Delete and CreateOrder are left out. They only read rows for a view.
- DbInitializer.cs and Program.cs are not part of this model. The database provider is taken to be SQL Server, so a foreign-key violation makes the save throw.
- User passwords are not modelled: no modelled operation reads them.
- Prices: decimal prices are whole cents. They are only ever copied.
- Sorting.Sort: does not model LINQ's stable sort. The contract says only "a sorted permutation"; the order of ties is unspecified.
- Text.LowerAscii: ToLowerInvariant is modelled on ASCII letters only. Other characters are kept, so non-ASCII case mapping is left out. SQL Server's case-insensitive comparison is modelled with the same ASCII folding.
- Text.SqlEquals: the database collation is taken to be the default SQL_Latin1_General_CP1_CI_AS. Its accent rules and non-ASCII case rules are not modelled.
- Catalog.IsSeparator: Path.GetExtension is modelled with the Windows separators '/' and '\\'. On Linux only '/' separates.
- Catalog.Create: a posted non-zero Id is ignored. The key always comes from the identity column, and the explicit-identity insert error is not modelled.
- Catalog.Create and Catalog.Edit: a form with an omitted Description stores "" where C# stores null.
- Db.SeedProducts: the seeded descriptions are left empty. No modelled operation reads them.
- Models.Product: the Ids handed out by the identity counters are unbounded integers. The int32 limit of the Id columns is not modelled.
- Orders.Cancel: a database fault in its save, caught at OrderController.cs:220-224, is not modelled. It would leave the store as it was.
- Catalog.DeleteConfirmed: a database fault in its save, caught at ProductController.cs:221-224, is not modelled. It would leave the store as it was.
- Catalog.Create and Catalog.Edit: ModelState.IsValid (Name is required) is the input `formValid`; the validation rules themselves are not modelled.
- Orders.CreateOrder: when the first save fails on the foreign key, SQL Server still uses up the identity value it drew. The model keeps the counter, so the next order gets that value instead.
- Orders.CreateOrder: the "User not found!" branch for a missing login claim is part of authorization. The model starts at the quantity check.
- Orders.UpdateStatus: a missing or empty `status` form field binds to null in C#. The model's status is always a string, so that case is not modelled. Whether the save then stores NULL or fails depends on the project's nullable setting, which is not part of this model.
- Orders.UpdateStatus: a NullReferenceException escapes the action as the reply `Unhandled`. The error page is not modelled.
- Concurrency: actions are atomic steps. Interleaving requests and EF concurrency tokens are left out, except for the not-found outcome of Edit's concurrency catch.

## Findings

| source | as written | input that shows it | evidently intended | confidence | as-written member | corrected member |
|---|---|---|---|---|---|---|
| StockManagement/Controllers/OrderController.cs:69-76 | UpdateStatus "Cancelled" adds the lines back to Quantity but leaves PurchaseCount, while Cancel also takes them off PurchaseCount | seeded order 1 set to "Cancelled": product 3 keeps PurchaseCount 65 with no live line left for it | PurchaseCount falls by the released quantity, as in Cancel | not executed | OrderLaws.UpdateStatusCancelBreaksCounts | OrderLaws.UpdateStatusGuardedKeepsLedger |
| StockManagement/Controllers/OrderController.cs:69-76 | UpdateStatus "Cancelled" does not check the current status, so cancelling a cancelled order restocks its lines again | order 1 set to "Cancelled" twice: product 3 gets 2 units back twice | a cancelled order is final and its lines are released once | not executed | OrderLaws.UpdateStatusRecancelBreaksStock | OrderLaws.UpdateStatusGuardedRecancelIsNoop |
| StockManagement/Controllers/ProductController.cs:96-146 | Edit binds a new Product without PurchaseCount or LastPurchasedDate, and `Update` saves every column, so an edit stores PurchaseCount 0 and LastPurchasedDate now | saving product 3's edit page unchanged: PurchaseCount 65 becomes 0 | an edit keeps the product's sales count and last purchase date | not executed | Catalog.EditForgetsSales | Catalog.EditKeepsLedger |
| StockManagement/Controllers/OrderController.cs:69-78 | UpdateStatus stores any status on a cancelled order, so "Pending" makes its lines live again while their units stay in stock | order 1 set to "Cancelled" and then to "Pending": product 3 has 2 units back in stock that order 1 counts again | a cancelled order is final | not executed | OrderLaws.UpdateStatusRevivalBreaksStock | OrderLaws.UpdateStatusGuardedKeepsLedger |

=== FILE: home.dfy ===
/** The home page of Controllers/HomeController.cs: the products bought in the
    last ten days, the ten with the largest PurchaseCount, merged without
    repeating a product and ordered newest purchase first. `table` is the
    Products table in the order the database returns it; `now` is the clock. */
module Home {
  import opened Models
  import opened Db
  import opened Sorting

  const RecentDays: int := 10
  const PopularCount: nat := 10

  function IsRecent(now: int): Product -> bool
  {
    (p: Product) => p.lastPurchased >= now - RecentDays * Day
  }

  /** `OrderByDescending(p => p.LastPurchasedDate)` */
  function ByLastPurchasedDesc(): (Product, Product) -> bool
  {
    (a: Product, b: Product) => a.lastPurchased >= b.lastPurchased
  }

  /** `OrderByDescending(p => p.PurchaseCount)` */
  function ByPurchaseCountDesc(): (Product, Product) -> bool
  {
    (a: Product, b: Product) => a.purchaseCount >= b.purchaseCount
  }

  /** `OrderByDescending(p => p.LastPurchasedDate).ThenByDescending(p => p.PurchaseCount)` */
  function ByRecencyThenPopularity(): (Product, Product) -> bool
  {
    (a: Product, b: Product) =>
      a.lastPurchased > b.lastPurchased || (a.lastPurchased == b.lastPurchased && a.purchaseCount >= b.purchaseCount)
  }

  /** The products bought at or after ten days before now, newest first. */
  function RecentProducts(table: seq<Product>, now: int): (r: seq<Product>)
    ensures forall p :: p in r <==> p in table && p.lastPurchased >= now - RecentDays * Day
    ensures forall p :: multiset(r)[p] == if p.lastPurchased >= now - RecentDays * Day then multiset(table)[p] else 0
    ensures forall i, j :: 0 <= i < j < |r| ==> r[i].lastPurchased >= r[j].lastPurchased
  {
    var recent := Filter(table, IsRecent(now));
    var sorted := Sort(recent, ByLastPurchasedDesc());
    assert forall p :: p in sorted <==> p in multiset(recent);
    sorted
  }

  /** The ten products with the largest PurchaseCount, largest first. */
  function PopularProducts(table: seq<Product>): (r: seq<Product>)
    ensures |r| == if |table| < PopularCount then |table| else PopularCount
    ensures forall i, j :: 0 <= i < j < |r| ==> r[i].purchaseCount >= r[j].purchaseCount
    ensures multiset(r) <= multiset(table)
    ensures |table| <= PopularCount ==> multiset(r) == multiset(table)
  {
    var sorted := Sort(table, ByPurchaseCountDesc());
    assert |sorted| == |multiset(sorted)| == |table|;
    var r := Take(sorted, PopularCount);
    assert sorted == r + sorted[|r|..];
    r
  }

  /** No product left out of the popular list has a larger PurchaseCount than
      one in it. */
  lemma PopularIsTopTen(table: seq<Product>)
    ensures
      var r := PopularProducts(table);
      forall p, q :: p in r && q in table && multiset(r)[q] < multiset(table)[q] ==>
        q.purchaseCount <= p.purchaseCount
  {
    var sorted := Sort(table, ByPurchaseCountDesc());
    var r := PopularProducts(table);
    assert r == sorted[..|r|];
    forall p, q | p in r && q in table && multiset(r)[q] < multiset(table)[q]
      ensures q.purchaseCount <= p.purchaseCount
    {
      PrefixPrecedesRest(sorted, |r|, ByPurchaseCountDesc(), p, q);
    }
  }

  // ---------------------------------------------------------------------------
  // Union and Distinct

  /** Some element of xs has this Id. Product.Equals compares Ids and
      GetHashCode is the Id, so this is the membership test Union and
      Distinct use. */
  predicate HasId(xs: seq<Product>, id: int)
  {
    exists q :: q in xs && q.id == id
  }

  /** No two elements of xs share an Id, and none occurs twice. */
  predicate UniqueIds(xs: seq<Product>)
  {
    && (forall p, q :: p in xs && q in xs && p.id == q.id ==> p == q)
    && (forall p :: p in xs ==> multiset(xs)[p] <= 1)
  }

  /** The elements of xs, in order, skipping any whose Id is in `seen` or has
      appeared before. */
  function DistinctFrom(xs: seq<Product>, seen: set<int>): (r: seq<Product>)
    ensures forall p :: p in r ==> p in xs && p.id !in seen
    decreases |xs|
  {
    if xs == [] then []
    else if xs[0].id in seen then DistinctFrom(xs[1..], seen)
    else [xs[0]] + DistinctFrom(xs[1..], seen + {xs[0].id})
  }

  /** DistinctFrom keeps one element for every Id of xs not in `seen`. */
  lemma {:induction false} DistinctFromIds(xs: seq<Product>, seen: set<int>)
    ensures forall id :: HasId(DistinctFrom(xs, seen), id) <==> HasId(xs, id) && id !in seen
    decreases |xs|
  {
    if xs != [] {
      var x := xs[0];
      assert xs == [x] + xs[1..];
      assert forall id :: HasId(xs, id) <==> id == x.id || HasId(xs[1..], id);
      if x.id in seen {
        DistinctFromIds(xs[1..], seen);
      } else {
        var rest := DistinctFrom(xs[1..], seen + {x.id});
        DistinctFromIds(xs[1..], seen + {x.id});
        assert forall id :: HasId([x] + rest, id) <==> id == x.id || HasId(rest, id) by {
          assert forall q :: q in [x] + rest <==> q == x || q in rest;
        }
      }
    }
  }

  /** ... and never the same Id twice. */
  lemma {:induction false} DistinctFromUniqueIds(xs: seq<Product>, seen: set<int>)
    ensures UniqueIds(DistinctFrom(xs, seen))
    decreases |xs|
  {
    if xs != [] {
      var x := xs[0];
      if x.id in seen {
        DistinctFromUniqueIds(xs[1..], seen);
      } else {
        var rest := DistinctFrom(xs[1..], seen + {x.id});
        DistinctFromUniqueIds(xs[1..], seen + {x.id});
        assert x !in rest;
        assert multiset([x] + rest) == multiset{x} + multiset(rest);
        assert forall q :: q in [x] + rest <==> q == x || q in rest;
      }
    }
  }

  /** `Distinct()` */
  function Distinct(xs: seq<Product>): seq<Product>
  {
    DistinctFrom(xs, {})
  }

  /** `a.Union(b)`: the elements of a and then of b, each Id once. */
  function Union(a: seq<Product>, b: seq<Product>): seq<Product>
  {
    DistinctFrom(a + b, {})
  }

  /** On a sequence without repeated Ids, DistinctFrom only drops the Ids in
      `seen`: Distinct after Union changes nothing. */
  lemma {:induction false} DistinctFromUnique(xs: seq<Product>, seen: set<int>)
    requires UniqueIds(xs)
    requires forall p :: p in xs ==> p.id !in seen
    ensures DistinctFrom(xs, seen) == xs
    decreases |xs|
  {
    if xs != [] {
      var x := xs[0];
      var rest := xs[1..];
      assert xs == [x] + rest;
      assert multiset(xs) == multiset{x} + multiset(rest);
      assert multiset(xs)[x] == 1 + multiset(rest)[x];
      assert x !in rest;
      assert UniqueIds(rest) by {
        forall p ensures multiset(rest)[p] <= 1 {
          assert multiset(rest)[p] <= multiset(xs)[p];
        }
      }
      assert forall p :: p in rest ==> p.id != x.id;
      DistinctFromUnique(rest, seen + {x.id});
    }
  }

  lemma DistinctIsIdempotent(xs: seq<Product>)
    ensures Distinct(Distinct(xs)) == Distinct(xs)
  {
    DistinctFromUniqueIds(xs, {});
    DistinctFromUnique(Distinct(xs), {});
  }

  /** The same Id never occurs at two positions. */
  lemma UniqueIdsByIndex(xs: seq<Product>)
    requires UniqueIds(xs)
    ensures forall i, j :: 0 <= i < j < |xs| ==> xs[i].id != xs[j].id
  {
    forall i, j | 0 <= i < j < |xs| ensures xs[i].id != xs[j].id {
      assert xs == xs[..j] + xs[j..];
      assert multiset(xs) == multiset(xs[..j]) + multiset(xs[j..]);
      assert multiset(xs[..j])[xs[i]] >= 1 by {
        assert xs[i] == xs[..j][i];
      }
      assert multiset(xs[j..])[xs[j]] >= 1 by {
        assert xs[j] == xs[j..][0];
      }
      assert multiset(xs)[xs[i]] <= 1;
    }
  }

  // ---------------------------------------------------------------------------
  // The page

  /** Reordering keeps the elements, their Ids and their uniqueness. */
  lemma PermutationKeepsIds(xs: seq<Product>, ys: seq<Product>)
    requires multiset(xs) == multiset(ys)
    ensures forall p :: p in xs <==> p in ys
    ensures forall id :: HasId(xs, id) <==> HasId(ys, id)
    ensures UniqueIds(xs) ==> UniqueIds(ys)
  {
    assert forall p :: p in xs <==> p in multiset(ys);
  }

  lemma HasIdConcat(a: seq<Product>, b: seq<Product>)
    ensures forall id :: HasId(a + b, id) <==> HasId(a, id) || HasId(b, id)
  {
    forall id ensures HasId(a + b, id) <==> HasId(a, id) || HasId(b, id) {
      if HasId(a + b, id) {
        var q :| q in a + b && q.id == id;
      }
      if HasId(a, id) {
        var q :| q in a && q.id == id;
        assert q in a + b;
      }
      if HasId(b, id) {
        var q :| q in b && q.id == id;
        assert q in a + b;
      }
    }
  }

  lemma RecencyThenPopularityIsTotal()
    ensures TotalPreorder(ByRecencyThenPopularity())
  {
  }

  /** The recent and popular lists merged: each Id once. */
  function Merged(table: seq<Product>, now: int): (r: seq<Product>)
    ensures forall p :: p in r ==> p in RecentProducts(table, now) || p in PopularProducts(table)
    ensures forall id :: HasId(r, id) <==> HasId(RecentProducts(table, now), id) || HasId(PopularProducts(table), id)
    ensures UniqueIds(r)
  {
    var recent := RecentProducts(table, now);
    var popular := PopularProducts(table);
    var union := Union(recent, popular);
    HasIdConcat(recent, popular);
    DistinctFromIds(recent + popular, {});
    DistinctFromIds(union, {});
    DistinctFromUniqueIds(union, {});
    Distinct(union)
  }

  /** Index: recent and popular products, each once, newest purchase first and
      then most bought. */
  function HomeIndex(table: seq<Product>, now: int): (r: seq<Product>)
    ensures forall p :: p in r ==> p in RecentProducts(table, now) || p in PopularProducts(table)
    ensures forall id :: HasId(r, id) <==> HasId(RecentProducts(table, now), id) || HasId(PopularProducts(table), id)
    ensures UniqueIds(r)
    ensures forall i, j :: 0 <= i < j < |r| ==>
      r[i].lastPurchased > r[j].lastPurchased ||
      (r[i].lastPurchased == r[j].lastPurchased && r[i].purchaseCount >= r[j].purchaseCount)
  {
    var merged := Merged(table, now);
    RecencyThenPopularityIsTotal();
    var sorted := Sort(merged, ByRecencyThenPopularity());
    PermutationKeepsIds(merged, sorted);
    sorted
  }
}

=== FILE: int32.dfy ===
/** C#'s `int` is a 32-bit two's-complement integer, and the controllers do
    their arithmetic in the default unchecked context: a sum that leaves the
    range keeps its low 32 bits. This module writes that out over Dafny's
    unbounded integers. */
module Int32 {

  const Modulus: int := 0x1_0000_0000
  const MinValue: int := -0x8000_0000
  const MaxValue: int := 0x7fff_ffff

  type int32 = x: int | -0x8000_0000 <= x < 0x8000_0000

  /** The value an unchecked C# `int` operation yields when the exact result is x. */
  function Wrap(x: int): (r: int32)
    ensures MinValue <= x <= MaxValue ==> r == x
  {
    (x - MinValue) % Modulus + MinValue
  }

  /** Wrapping changes a value by a multiple of 2^32. */
  lemma WrapIsCongruent(x: int)
    ensures (Wrap(x) - x) % Modulus == 0
  {
  }

  /** Two exact values that agree modulo 2^32 wrap to the same int32. */
  lemma WrapCongruent(x: int, y: int)
    requires (x - y) % Modulus == 0
    ensures Wrap(x) == Wrap(y)
  {
    var k := (x - y) / Modulus;
    assert x - MinValue == (y - MinValue) + k * Modulus;
    ModShift(y - MinValue, k);
  }

  lemma {:induction false} ModShift(a: int, k: int)
    ensures (a + k * Modulus) % Modulus == a % Modulus
    decreases if k < 0 then -k else k
  {
    if k > 0 {
      ModShift(a, k - 1);
      assert a + k * Modulus == (a + (k - 1) * Modulus) + Modulus;
    } else if k < 0 {
      ModShift(a, k + 1);
      assert a + k * Modulus == (a + (k + 1) * Modulus) - Modulus;
    }
  }

  /** Wrapping an intermediate result changes nothing: unchecked addition is
      addition modulo 2^32. */
  lemma WrapAdd(a: int, b: int)
    ensures Wrap(Wrap(a) + b) == Wrap(a + b)
  {
    WrapIsCongruent(a);
    WrapCongruent(Wrap(a) + b, a + b);
  }

  /** Adding q to a wrapped value, for 0 < q < 2^32, always changes it. */
  lemma WrapStepDiffers(x: int, q: int)
    requires 0 < q < Modulus
    ensures Wrap(Wrap(x) + q) != Wrap(x)
  {
    WrapAdd(x, q);
    WrapShiftDiffers(x + q, q);
  }

  /** Two unchecked additions of q are one unchecked addition of 2q. */
  lemma WrapAddTwice(a: int, q: int, x: int, y: int)
    requires x == Wrap(a + q) && y == Wrap(x + q)
    ensures y == Wrap(a + 2 * q)
  {
    WrapAdd(a + q, q);
  }

  /** Moving d from one addend to the other, with a wrap in between, leaves
      the wrapped sum unchanged. */
  lemma WrapTransfer(a: int, d: int, b: int)
    ensures Wrap(Wrap(a + d) + (b - d)) == Wrap(a + b)
  {
    WrapAdd(a + d, b - d);
  }

  /** Adding b and then subtracting it (both unchecked) gives back the start value. */
  lemma WrapAddSub(a: int32, b: int)
    ensures Wrap(Wrap(a + b) - b) == a
  {
    WrapAdd(a + b, -b);
  }

  /** Negation in an unchecked context: `-int.MinValue` is `int.MinValue`. */
  function Negate(a: int32): (r: int32)
    ensures Wrap(a + r) == 0
  {
    WrapIsCongruent(-(a as int));
    WrapCongruent(a + Wrap(-(a as int)), 0);
    Wrap(-(a as int))
  }

  /** Adding a and then its negation gives back the starting value. */
  lemma NegateUndoes(q: int32, a: int32)
    ensures Wrap(Wrap(q + a) + Negate(a)) == q
  {
    var back := Negate(a);
    WrapAdd(q + a, back);
    WrapIsCongruent(a + back);
    WrapCongruent(q + a + back, q);
  }

  /** Moving by a non-zero amount smaller than 2^32 always changes the wrapped value. */
  lemma WrapShiftDiffers(x: int, q: int)
    requires 0 < q < Modulus
    ensures Wrap(x - q) != Wrap(x)
  {
    var y := x - MinValue;
    assert y == Modulus * (y / Modulus) + y % Modulus;
    assert y - q == Modulus * ((y - q) / Modulus) + (y - q) % Modulus;
  }

  /** If p less l wraps to the same value as p0 less l0, and p0 is base plus
      l0 wrapped, then p is base plus l wrapped. */
  lemma WrapRebase(p: int32, l: int, p0: int32, l0: int, base: int)
    requires Wrap(p - l) == Wrap(p0 - l0)
    requires p0 == Wrap(base + l0)
    ensures p == Wrap(base + l)
  {
    WrapAdd(p - l, l);
    WrapAdd(p0 - l0, l);
    WrapAdd(base + l0, l - l0);
  }
}

=== FILE: ledger.dfy ===
/** The stock ledger: how a product's Quantity and PurchaseCount relate to
    the orders that reference it. An order is live unless its Status is
    "Cancelled"; the live units of a product are the quantities on its lines
    in live orders. Both counters are meant to follow the live units from a
    fixed starting point: PurchaseCount up, Quantity down. */
module Ledger {
  import opened Int32
  import opened Models
  import opened Db

  /** Units of product pid that order oid holds, if the order is live. */
  function LiveLine(s: Store, oid: int, pid: int): int
  {
    if oid in s.orders && s.orders[oid].status != Cancelled && ItemKey(oid, pid) in s.items
    then s.items[ItemKey(oid, pid)].quantity
    else 0
  }

  /** The live units of pid over the order ids 0 .. n-1. */
  function UnitsBelow(s: Store, n: int, pid: int): int
    decreases n
  {
    if n <= 0 then 0 else UnitsBelow(s, n - 1, pid) + LiveLine(s, n - 1, pid)
  }

  /** Every order id lies below the identity counter (in a consistent store),
      so summing up to it covers every order. */
  function LiveUnits(s: Store, pid: int): int
  {
    UnitsBelow(s, s.nextOrderId, pid)
  }

  /** PurchaseCount counts the live units on top of a per-product start value. */
  ghost predicate CountsLive(s: Store, sold: map<int, int>)
  {
    forall pid :: pid in s.products ==>
      pid in sold && s.products[pid].purchaseCount == Wrap(sold[pid] + LiveUnits(s, pid))
  }

  /** Quantity is a per-product start value less the live units. */
  ghost predicate StockNetOfLive(s: Store, stock: map<int, int>)
  {
    forall pid :: pid in s.products ==>
      pid in stock && s.products[pid].quantity == Wrap(stock[pid] - LiveUnits(s, pid))
  }

  /** PurchaseCount less the live units, and Quantity plus the live units:
      the ledger invariants say these stay at their start values. */
  function SoldBalance(s: Store, pid: int): int32
    requires pid in s.products
  {
    Wrap(s.products[pid].purchaseCount - LiveUnits(s, pid))
  }

  function StockBalance(s: Store, pid: int): int32
    requires pid in s.products
  {
    Wrap(s.products[pid].quantity + LiveUnits(s, pid))
  }

  /** A step that puts d more units of pid into live orders, taking them off
      Quantity and adding them to PurchaseCount (d < 0 for a release), keeps
      both balances of pid. */
  lemma ShiftKeepsBalances(s: Store, t: Store, pid: int, d: int)
    requires pid in s.products && pid in t.products
    requires LiveUnits(t, pid) == LiveUnits(s, pid) + d
    requires t.products[pid].purchaseCount == Wrap(s.products[pid].purchaseCount + d)
    requires t.products[pid].quantity == Wrap(s.products[pid].quantity - d)
    ensures SoldBalance(t, pid) == SoldBalance(s, pid)
    ensures StockBalance(t, pid) == StockBalance(s, pid)
  {
    WrapTransfer(s.products[pid].purchaseCount, d, -LiveUnits(s, pid));
    ShiftKeepsStockBalance(s, t, pid, d);
  }

  /** The stock half alone: d more live units and d fewer in stock. */
  lemma ShiftKeepsStockBalance(s: Store, t: Store, pid: int, d: int)
    requires pid in s.products && pid in t.products
    requires LiveUnits(t, pid) == LiveUnits(s, pid) + d
    requires t.products[pid].quantity == Wrap(s.products[pid].quantity - d)
    ensures StockBalance(t, pid) == StockBalance(s, pid)
  {
    WrapTransfer(s.products[pid].quantity, -d, LiveUnits(s, pid));
  }

  /** t keeps a subset of the products of s, each with its balance unchanged. */
  ghost predicate SameSoldBalances(s: Store, t: Store)
  {
    && t.products.Keys <= s.products.Keys
    && forall pid :: pid in t.products ==> SoldBalance(t, pid) == SoldBalance(s, pid)
  }

  ghost predicate SameStockBalances(s: Store, t: Store)
  {
    && t.products.Keys <= s.products.Keys
    && forall pid :: pid in t.products ==> StockBalance(t, pid) == StockBalance(s, pid)
  }

  /** Any change that keeps the sold balance of every remaining product keeps
      PurchaseCount counting the live units. */
  lemma SoldBalancesKeepCounts(s: Store, t: Store, sold: map<int, int>)
    requires SameSoldBalances(s, t) && CountsLive(s, sold)
    ensures CountsLive(t, sold)
  {
    forall pid | pid in t.products
      ensures pid in sold && t.products[pid].purchaseCount == Wrap(sold[pid] + LiveUnits(t, pid))
    {
      WrapRebase(t.products[pid].purchaseCount, LiveUnits(t, pid),
                 s.products[pid].purchaseCount, LiveUnits(s, pid), sold[pid]);
    }
  }

  /** Any change that keeps the stock balance of every remaining product keeps
      Quantity net of the live units. */
  lemma StockBalancesKeepStock(s: Store, t: Store, stock: map<int, int>)
    requires SameStockBalances(s, t) && StockNetOfLive(s, stock)
    ensures StockNetOfLive(t, stock)
  {
    forall pid | pid in t.products
      ensures pid in stock && t.products[pid].quantity == Wrap(stock[pid] - LiveUnits(t, pid))
    {
      WrapRebase(t.products[pid].quantity, -LiveUnits(t, pid),
                 s.products[pid].quantity, -LiveUnits(s, pid), stock[pid]);
    }
  }

  /** Any store satisfies both invariants when the start values are its own
      balances; the seeded store in particular starts the ledger. */
  lemma CountsLiveAtBalances(s: Store)
    ensures CountsLive(s, map pid | pid in s.products :: SoldBalance(s, pid))
  {
    var sold := map pid | pid in s.products :: SoldBalance(s, pid);
    forall pid | pid in s.products
      ensures pid in sold && s.products[pid].purchaseCount == Wrap(sold[pid] + LiveUnits(s, pid))
    {
      var pc := s.products[pid].purchaseCount;
      var l := LiveUnits(s, pid);
      WrapTransfer(pc, -l, 0);
      assert sold[pid] == Wrap(pc - l);
    }
  }

  lemma StockNetOfLiveAtBalances(s: Store)
    ensures StockNetOfLive(s, map pid | pid in s.products :: StockBalance(s, pid))
  {
    var stock := map pid | pid in s.products :: StockBalance(s, pid);
    forall pid | pid in s.products
      ensures pid in stock && s.products[pid].quantity == Wrap(stock[pid] - LiveUnits(s, pid))
    {
      var q := s.products[pid].quantity;
      var l := LiveUnits(s, pid);
      WrapTransfer(q, l, 0);
      assert stock[pid] == Wrap(q + l);
    }
  }

  /** Replacing one product's row by one with the same PurchaseCount, and no
      order line changing, keeps the count invariant, and keeps the stock
      invariant against a start value re-based on the new Quantity. */
  lemma ReplaceProductKeepsLedger(s: Store, t: Store, sold: map<int, int>, stock: map<int, int>,
                                  id: int, p: Product)
    requires CountsLive(s, sold) && StockNetOfLive(s, stock)
    requires id in s.products && p.purchaseCount == s.products[id].purchaseCount
    requires t == s.(products := s.products[id := p])
    ensures CountsLive(t, sold)
    ensures StockNetOfLive(t, stock[id := p.quantity + LiveUnits(s, id)])
  {
    var rebased := stock[id := p.quantity + LiveUnits(s, id)];
    forall pid | pid in t.products
      ensures LiveUnits(t, pid) == LiveUnits(s, pid)
    {
      UnitsBelowSame(s, t, s.nextOrderId, pid);
    }
    forall pid | pid in t.products
      ensures pid in rebased && t.products[pid].quantity == Wrap(rebased[pid] - LiveUnits(t, pid))
    {
      if pid == id {
        assert rebased[pid] - LiveUnits(t, pid) == p.quantity as int;
      }
    }
  }

  /** A new product row with PurchaseCount 0 and no order lines extends both
      invariants, with start values 0 and its Quantity. */
  lemma AddProductExtendsLedger(s: Store, t: Store, sold: map<int, int>, stock: map<int, int>,
                                id: int, p: Product)
    requires CountsLive(s, sold) && StockNetOfLive(s, stock)
    requires id !in s.products && forall k :: k in s.items ==> k.productId != id
    requires p.purchaseCount == 0
    requires t.products == s.products[id := p]
    requires t.orders == s.orders && t.items == s.items && t.nextOrderId == s.nextOrderId
    ensures CountsLive(t, sold[id := 0])
    ensures StockNetOfLive(t, stock[id := p.quantity])
  {
    forall pid ensures LiveUnits(t, pid) == LiveUnits(s, pid) {
      UnitsBelowSame(s, t, s.nextOrderId, pid);
    }
    forall o | 0 <= o < s.nextOrderId ensures LiveLine(s, o, id) == 0 {
      assert ItemKey(o, id) !in s.items;
    }
    UnitsBelowSame(s, Store(map[], map[], map[], map[], 0, 0), s.nextOrderId, id);
    ZeroUnits(s.nextOrderId, id);
  }

  /** The empty store has no live units. */
  lemma {:induction false} ZeroUnits(n: int, pid: int)
    ensures UnitsBelow(Store(map[], map[], map[], map[], 0, 0), n, pid) == 0
    decreases n
  {
    if n > 0 {
      ZeroUnits(n - 1, pid);
    }
  }

  // ---------------------------------------------------------------------------
  // Sums

  /** Stores whose lines agree on every order id below n have equal sums. */
  lemma {:induction false} UnitsBelowSame(s: Store, t: Store, n: int, pid: int)
    requires forall oid :: 0 <= oid < n ==> LiveLine(s, oid, pid) == LiveLine(t, oid, pid)
    ensures UnitsBelow(s, n, pid) == UnitsBelow(t, n, pid)
    decreases n
  {
    if n > 0 {
      UnitsBelowSame(s, t, n - 1, pid);
    }
  }

  /** Stores that differ on one order only: the sum moves by that order's difference. */
  lemma {:induction false} UnitsBelowPoint(s: Store, t: Store, n: int, pid: int, oid: int)
    requires 0 <= oid < n
    requires forall o :: 0 <= o < n && o != oid ==> LiveLine(s, o, pid) == LiveLine(t, o, pid)
    ensures UnitsBelow(t, n, pid) == UnitsBelow(s, n, pid) - LiveLine(s, oid, pid) + LiveLine(t, oid, pid)
    decreases n
  {
    if n - 1 == oid {
      UnitsBelowSame(s, t, n - 1, pid);
    } else {
      UnitsBelowPoint(s, t, n - 1, pid, oid);
    }
  }
}

=== FILE: models.dfy ===
/** The entity records of the application (Models/Product.cs, Models/Order.cs,
    Models/User.cs) and the identity rule of Product.

    Navigation collections (Product.OrderItems, Order.OrderItems, User.Orders)
    are not fields here: the store keeps order lines in one keyed map, and a
    record's lines are those whose key names it. Prices are decimal in the
    source; here they are whole cents that are only ever copied. Timestamps
    are whole seconds. */
module Models {
  import opened Int32

  /** Order.Status is a free string column. These are the values the
      application itself writes. */
  const Pending: string := "Pending"
  const Processing: string := "Processing"
  const Cancelled: string := "Cancelled"

  const PlaceholderImage: string := "/images/placeholder.png"

  datatype Product = Product(
    id: int,
    name: string,
    price: int,
    quantity: int32,
    imageUrl: string,
    description: string,
    lastPurchased: int,
    purchaseCount: int32)

  datatype Order = Order(id: int, orderDate: int, status: string, userId: int)

  /** One order line. Its identity, the (OrderId, ProductId) pair, is the key
      under which the store holds it. */
  datatype OrderItem = OrderItem(quantity: int32, unitPrice: int)

  /** User.Role is "User" or "Manager"; the password column plays no part here. */
  datatype User = User(id: int, username: string, role: string)

  /** `new Product()`: the property initialisers of Product, with `now` the
      clock reading that `DateTime.Now` gives. String properties without an
      initialiser are null in C#; here they are empty. */
  function NewProduct(now: int): (p: Product)
    ensures p.imageUrl == PlaceholderImage
    ensures p.quantity == 0 && p.purchaseCount == 0 && p.price == 0
    ensures p.lastPurchased == now
  {
    Product(0, "", 0, 0, PlaceholderImage, "", now, 0)
  }

  /** `new Order()`: Status starts as "Pending". */
  function NewOrder(): (o: Order)
    ensures o.status == Pending
  {
    Order(0, 0, Pending, 0)
  }

  // ---------------------------------------------------------------------------
  // Identity of products

  /** A C# reference that may be null. */
  datatype Nullable<T> = Null | NonNull(value: T)

  /** The argument of `Equals(object)`: null, a Product, or some other object. */
  datatype Object = NullObject | ProductObject(product: Product) | OtherObject(typeName: string)

  /** `obj as Product` */
  function AsProduct(obj: Object): Nullable<Product>
  {
    match obj
    case ProductObject(p) => NonNull(p)
    case _ => Null
  }

  /** Product.Equals(Product) */
  predicate EqualsProduct(self: Product, other: Nullable<Product>)
  {
    match other
    case Null => false
    case NonNull(p) => self.id == p.id
  }

  /** Product.Equals(object) */
  predicate EqualsObject(self: Product, obj: Object)
  {
    EqualsProduct(self, AsProduct(obj))
  }

  /** Product.GetHashCode(): Int32.GetHashCode() is the integer itself. */
  function HashCode(p: Product): int
  {
    p.id
  }

  lemma EqualsNullIsFalse(p: Product)
    ensures !EqualsProduct(p, Null)
    ensures !EqualsObject(p, NullObject)
  {
  }

  /** Two products are equal exactly when their ids are, whatever their other fields. */
  lemma EqualsIffSameId(a: Product, b: Product)
    ensures EqualsProduct(a, NonNull(b)) <==> a.id == b.id
    ensures EqualsObject(a, ProductObject(b)) <==> a.id == b.id
  {
  }

  lemma EqualsNonProductIsFalse(p: Product, typeName: string)
    ensures !EqualsObject(p, OtherObject(typeName))
  {
  }

  lemma EqualProductsHashAlike(a: Product, b: Product)
    requires EqualsProduct(a, NonNull(b))
    ensures HashCode(a) == HashCode(b)
  {
  }

  /** On non-null products, Equals is an equivalence relation. */
  lemma EqualsIsEquivalence(a: Product, b: Product, c: Product)
    ensures EqualsProduct(a, NonNull(a))
    ensures EqualsProduct(a, NonNull(b)) <==> EqualsProduct(b, NonNull(a))
    ensures EqualsProduct(a, NonNull(b)) && EqualsProduct(b, NonNull(c)) ==> EqualsProduct(a, NonNull(c))
  {
  }
}

=== FILE: order_laws.dfy ===
/** What the order actions do to the stock ledger over several steps:
    placing and cancelling are inverse on the counters, a second cancellation
    changes nothing, and both keep PurchaseCount and Quantity in step with the
    live orders. The manager's UpdateStatus does not: its "Cancelled" leaves
    PurchaseCount counting a dead order and, repeated, releases stock again.
    UpdateStatusGuarded is the status change with both defects removed. */
module OrderLaws {
  import opened Int32
  import opened Models
  import opened Db
  import opened Ledger
  import opened Orders

  // ---------------------------------------------------------------------------
  // Round trip and idempotence

  /** The order just placed is the caller's, Pending, and its only line is
      the one for productId. */
  lemma CreatedIsCancellable(s: Store, userId: int, productId: int, quantity: int32, now: int)
    requires Consistent(s) && CanPlace(s, userId, productId, quantity)
    ensures
      var t := CreateOrder(s, userId, productId, quantity, now, false).store;
      && Cancellable(t, s.nextOrderId, userId)
      && (forall pid :: ItemKey(s.nextOrderId, pid) in t.items <==> pid == productId)
      && t.items[ItemKey(s.nextOrderId, productId)].quantity == quantity
      && t.products[productId].quantity == s.products[productId].quantity - quantity
      && t.products[productId].purchaseCount == Wrap(s.products[productId].purchaseCount + quantity)
  {
    var t := CreateOrder(s, userId, productId, quantity, now, false).store;
    forall pid ensures ItemKey(s.nextOrderId, pid) in t.items <==> pid == productId {
      assert ItemKey(s.nextOrderId, pid) !in s.items;
    }
  }

  /** Placing an order and then cancelling it gives both counters of the
      product back and leaves every other product as it was. */
  lemma CreateThenCancelRestores(s: Store, userId: int, productId: int, quantity: int32, now: int)
    requires Consistent(s)
    requires CanPlace(s, userId, productId, quantity)
    ensures
      var placed := CreateOrder(s, userId, productId, quantity, now, false);
      var cancelled := Cancel(placed.store, s.nextOrderId, userId);
      && placed.reply == Created(s.nextOrderId)
      && cancelled.reply == Done
      && cancelled.store.products.Keys == s.products.Keys
      && cancelled.store.products[productId].quantity == s.products[productId].quantity
      && cancelled.store.products[productId].purchaseCount == s.products[productId].purchaseCount
      && (forall pid :: pid in s.products && pid != productId ==> cancelled.store.products[pid] == s.products[pid])
      && cancelled.store.orders[s.nextOrderId].status == Cancelled
  {
    CreatedIsCancellable(s, userId, productId, quantity, now);
    CreateThenCancelProduct(s, userId, productId, quantity, now);
    forall pid | pid in s.products && pid != productId
      ensures Cancel(CreateOrder(s, userId, productId, quantity, now, false).store, s.nextOrderId, userId)
                .store.products[pid] == s.products[pid]
    {
      CreateThenCancelOther(s, userId, productId, quantity, now, pid);
    }
  }

  lemma CreateThenCancelProduct(s: Store, userId: int, productId: int, quantity: int32, now: int)
    requires Consistent(s) && CanPlace(s, userId, productId, quantity)
    ensures
      var t := CreateOrder(s, userId, productId, quantity, now, false).store;
      var u := Cancel(t, s.nextOrderId, userId).store;
      && productId in u.products
      && u.products[productId].quantity == s.products[productId].quantity
      && u.products[productId].purchaseCount == s.products[productId].purchaseCount
  {
    var t := CreateOrder(s, userId, productId, quantity, now, false).store;
    var p := s.products[productId];
    CreatedIsCancellable(s, userId, productId, quantity, now);
    CancelUndoesLine(t, s.nextOrderId, userId, productId, quantity, p.quantity, p.purchaseCount);
  }

  /** Cancelling an order whose line of pid took q units off a stock of a and
      added them to a count of pc gives back a and pc. */
  lemma CancelUndoesLine(t: Store, oid: int, userId: int, pid: int, q: int32, a: int32, pc: int32)
    requires Cancellable(t, oid, userId)
    requires ItemKey(oid, pid) in t.items && t.items[ItemKey(oid, pid)].quantity == q
    requires pid in t.products && t.products[pid].quantity == a - q
    requires t.products[pid].purchaseCount == Wrap(pc + q)
    ensures
      var u := Cancel(t, oid, userId).store;
      pid in u.products && u.products[pid].quantity == a && u.products[pid].purchaseCount == pc
  {
    WrapAddSub(pc, q);
  }

  lemma CreateThenCancelOther(s: Store, userId: int, productId: int, quantity: int32, now: int, pid: int)
    requires Consistent(s) && CanPlace(s, userId, productId, quantity)
    requires pid in s.products && pid != productId
    ensures
      var t := CreateOrder(s, userId, productId, quantity, now, false).store;
      var u := Cancel(t, s.nextOrderId, userId).store;
      pid in u.products && u.products[pid] == s.products[pid]
  {
    CreatedIsCancellable(s, userId, productId, quantity, now);
  }

  /** In the seeded store, user 2 orders 2 of the 50 Fire TV Sticks 4K
      (PurchaseCount 65): 48 and 67 after, with a line priced 49.99. */
  lemma SeedOrderPlaces(now: int)
    ensures
      var placed := CreateOrder(Seed(now), 2, 3, 2, now, false);
      && placed.reply == Created(3)
      && 3 in placed.store.products
      && placed.store.products[3].quantity == 48 && placed.store.products[3].purchaseCount == 67
      && ItemKey(3, 3) in placed.store.items
      && placed.store.items[ItemKey(3, 3)] == OrderItem(2, 4999)
  {
    var s := Seed(now);
    assert s.products[3].quantity == 50 && s.products[3].purchaseCount == 65 && s.products[3].price == 4999;
  }

  /** ... and cancelling that order gives back 50 and 65. */
  lemma SeedOrderThenCancel(now: int)
    ensures
      var placed := CreateOrder(Seed(now), 2, 3, 2, now, false);
      var cancelled := Cancel(placed.store, 3, 2);
      && cancelled.reply == Done
      && 3 in cancelled.store.products
      && cancelled.store.products[3].quantity == 50 && cancelled.store.products[3].purchaseCount == 65
  {
    var s := Seed(now);
    assert s.products[3].quantity == 50 && s.products[3].purchaseCount == 65;
    assert CanPlace(s, 2, 3, 2);
    CreateThenCancelRestores(s, 2, 3, 2, now);
  }

  /** A second Cancel of the same order finds no Pending order: it answers
      NotFound and changes nothing, so this path never releases stock twice. */
  lemma CancelTwiceIsNoop(s: Store, orderId: int, userId: int)
    requires Cancel(s, orderId, userId).reply == Done
    ensures
      var once := Cancel(s, orderId, userId).store;
      Cancel(once, orderId, userId) == Step(NotFound, once)
  {
  }

  /** A status stored with a trailing blank still reads as Pending to the
      queries: the order is on the manager's list and its owner can cancel
      it, whatever status it had before. */
  lemma PaddedPendingIsCancellable(s: Store, orderId: int, table: seq<Order>)
    requires orderId in s.orders
    ensures
      var t := UpdateStatus(s, orderId, "Pending ").store;
      && Cancellable(t, orderId, s.orders[orderId].userId)
      && (t.orders[orderId] in table ==> t.orders[orderId] in ManageOrders(table))
  {
    PendingAsSqlServerCompares();
  }

  /** UpdateStatus "Cancelled" applied twice puts every line back to stock twice. */
  lemma UpdateStatusReleasesTwice(s: Store, orderId: int)
    requires orderId in s.orders && !HasDanglingLine(s, orderId)
    ensures
      var once := UpdateStatus(s, orderId, Cancelled);
      var twice := UpdateStatus(once.store, orderId, Cancelled);
      && twice.reply == Done
      && forall pid :: pid in s.products && ItemKey(orderId, pid) in s.items ==>
           twice.store.products[pid].quantity
             == Wrap(s.products[pid].quantity + 2 * s.items[ItemKey(orderId, pid)].quantity)
  {
    var once := UpdateStatus(s, orderId, Cancelled);
    assert !HasDanglingLine(once.store, orderId);
    forall pid | pid in s.products && ItemKey(orderId, pid) in s.items
      ensures UpdateStatus(once.store, orderId, Cancelled).store.products[pid].quantity
                == Wrap(s.products[pid].quantity + 2 * s.items[ItemKey(orderId, pid)].quantity)
    {
      ReleasesTwiceAt(s, orderId, pid);
    }
  }

  lemma ReleasesTwiceAt(s: Store, orderId: int, pid: int)
    requires orderId in s.orders && !HasDanglingLine(s, orderId)
    requires pid in s.products && ItemKey(orderId, pid) in s.items
    ensures
      var once := UpdateStatus(s, orderId, Cancelled).store;
      var twice := UpdateStatus(once, orderId, Cancelled).store;
      twice.products[pid].quantity == Wrap(s.products[pid].quantity + 2 * s.items[ItemKey(orderId, pid)].quantity)
  {
    var once := UpdateStatus(s, orderId, Cancelled).store;
    UpdateStatusCancelRestocksAt(s, orderId, pid);
    UpdateStatusCancelRestocksAt(once, orderId, pid);
    var twice := UpdateStatus(once, orderId, Cancelled).store;
    var q := s.items[ItemKey(orderId, pid)].quantity;
    WrapAddTwice(s.products[pid].quantity, q, once.products[pid].quantity, twice.products[pid].quantity);
  }

  /** One UpdateStatus "Cancelled" restocks pid by its line and leaves the
      order with the same lines, none of them dangling. */
  lemma UpdateStatusCancelRestocksAt(s: Store, orderId: int, pid: int)
    requires orderId in s.orders && !HasDanglingLine(s, orderId)
    requires pid in s.products && ItemKey(orderId, pid) in s.items
    ensures
      var t := UpdateStatus(s, orderId, Cancelled).store;
      && orderId in t.orders && t.items == s.items && !HasDanglingLine(t, orderId)
      && pid in t.products
      && t.products[pid].quantity == Wrap(s.products[pid].quantity + s.items[ItemKey(orderId, pid)].quantity)
  {
  }

  // ---------------------------------------------------------------------------
  // The ledger

  /** Placing an order adds its quantity to the live units of that product
      only; a failed second save adds an order with no lines. */
  lemma CreateOrderLiveUnits(s: Store, userId: int, productId: int, quantity: int32, now: int,
                             itemSaveFails: bool, pid: int)
    requires Consistent(s) && CanPlace(s, userId, productId, quantity)
    ensures
      var r := CreateOrder(s, userId, productId, quantity, now, itemSaveFails);
      LiveUnits(r.store, pid) ==
        LiveUnits(s, pid) + (if r.reply.Created? && pid == productId then quantity as int else 0)
  {
    var r := CreateOrder(s, userId, productId, quantity, now, itemSaveFails);
    var t := r.store;
    var oid := s.nextOrderId;
    assert ItemKey(oid, pid) !in s.items;
    forall o | 0 <= o < oid ensures LiveLine(s, o, pid) == LiveLine(t, o, pid) {
      assert o != oid;
    }
    UnitsBelowSame(s, t, oid, pid);
  }

  lemma CreateOrderBalancesAt(s: Store, userId: int, productId: int, quantity: int32, now: int,
                              itemSaveFails: bool, pid: int)
    requires Consistent(s) && CanPlace(s, userId, productId, quantity)
    requires pid in s.products
    ensures
      var t := CreateOrder(s, userId, productId, quantity, now, itemSaveFails).store;
      && pid in t.products
      && SoldBalance(t, pid) == SoldBalance(s, pid)
      && StockBalance(t, pid) == StockBalance(s, pid)
  {
    var r := CreateOrder(s, userId, productId, quantity, now, itemSaveFails);
    CreateOrderLiveUnits(s, userId, productId, quantity, now, itemSaveFails, pid);
    var d := if r.reply.Created? && pid == productId then quantity as int else 0;
    ShiftKeepsBalances(s, r.store, pid, d);
  }

  /** Placing an order, or failing to, keeps both ledger invariants. */
  lemma CreateOrderKeepsLedger(s: Store, sold: map<int, int>, stock: map<int, int>,
                               userId: int, productId: int, quantity: int32, now: int, itemSaveFails: bool)
    requires Consistent(s) && CountsLive(s, sold) && StockNetOfLive(s, stock)
    ensures
      var t := CreateOrder(s, userId, productId, quantity, now, itemSaveFails).store;
      CountsLive(t, sold) && StockNetOfLive(t, stock)
  {
    var t := CreateOrder(s, userId, productId, quantity, now, itemSaveFails).store;
    if CanPlace(s, userId, productId, quantity) {
      forall pid | pid in t.products
        ensures SoldBalance(t, pid) == SoldBalance(s, pid) && StockBalance(t, pid) == StockBalance(s, pid)
      {
        CreateOrderBalancesAt(s, userId, productId, quantity, now, itemSaveFails, pid);
      }
      SoldBalancesKeepCounts(s, t, sold);
      StockBalancesKeepStock(s, t, stock);
    }
  }

  /** Cancelling removes an order's lines from the live units and undoes both
      counters by the same amounts. */
  lemma CancelBalancesAt(s: Store, orderId: int, userId: int, pid: int)
    requires Consistent(s) && Cancellable(s, orderId, userId) && pid in s.products
    ensures
      var t := Cancel(s, orderId, userId).store;
      && pid in t.products
      && SoldBalance(t, pid) == SoldBalance(s, pid)
      && StockBalance(t, pid) == StockBalance(s, pid)
  {
    var t := Cancel(s, orderId, userId).store;
    UnitsBelowPoint(s, t, s.nextOrderId, pid, orderId);
    ShiftKeepsBalances(s, t, pid, -LiveLine(s, orderId, pid));
  }

  /** A customer's cancellation keeps both ledger invariants. */
  lemma CancelKeepsLedger(s: Store, sold: map<int, int>, stock: map<int, int>, orderId: int, userId: int)
    requires Consistent(s) && CountsLive(s, sold) && StockNetOfLive(s, stock)
    ensures
      var t := Cancel(s, orderId, userId).store;
      CountsLive(t, sold) && StockNetOfLive(t, stock)
  {
    var t := Cancel(s, orderId, userId).store;
    if Cancellable(s, orderId, userId) {
      forall pid | pid in t.products
        ensures SoldBalance(t, pid) == SoldBalance(s, pid) && StockBalance(t, pid) == StockBalance(s, pid)
      {
        CancelBalancesAt(s, orderId, userId, pid);
      }
      SoldBalancesKeepCounts(s, t, sold);
      StockBalancesKeepStock(s, t, stock);
    }
  }

  /** A status change between two statuses other than "Cancelled" keeps both
      ledger invariants. */
  lemma UpdateStatusLiveKeepsLedger(s: Store, sold: map<int, int>, stock: map<int, int>,
                                    orderId: int, status: string)
    requires Consistent(s) && CountsLive(s, sold) && StockNetOfLive(s, stock)
    requires orderId in s.orders && s.orders[orderId].status != Cancelled && status != Cancelled
    ensures
      var t := UpdateStatus(s, orderId, status).store;
      CountsLive(t, sold) && StockNetOfLive(t, stock)
  {
    var t := UpdateStatus(s, orderId, status).store;
    forall pid | pid in t.products
      ensures SoldBalance(t, pid) == SoldBalance(s, pid) && StockBalance(t, pid) == StockBalance(s, pid)
    {
      UnitsBelowSame(s, t, s.nextOrderId, pid);
    }
    SoldBalancesKeepCounts(s, t, sold);
    StockBalancesKeepStock(s, t, stock);
  }

  /** UpdateStatus "Cancelled" on a live order: the line leaves the live units
      and its quantity comes back to stock, but PurchaseCount stays. */
  lemma UpdateStatusCancelUnitsAt(s: Store, orderId: int, pid: int)
    requires Consistent(s) && orderId in s.orders && s.orders[orderId].status != Cancelled
    requires pid in s.products
    ensures
      var t := UpdateStatus(s, orderId, Cancelled).store;
      && pid in t.products
      && LiveUnits(t, pid) == LiveUnits(s, pid) - LiveLine(s, orderId, pid)
      && StockBalance(t, pid) == StockBalance(s, pid)
  {
    var t := UpdateStatus(s, orderId, Cancelled).store;
    UnitsBelowPoint(s, t, s.nextOrderId, pid, orderId);
    ShiftKeepsStockBalance(s, t, pid, -LiveLine(s, orderId, pid));
  }

  /** UpdateStatus "Cancelled" on a live order keeps Quantity in step with the
      live orders: the stock comes back. */
  lemma UpdateStatusCancelKeepsStock(s: Store, stock: map<int, int>, orderId: int)
    requires Consistent(s) && StockNetOfLive(s, stock)
    requires orderId in s.orders && s.orders[orderId].status != Cancelled
    ensures StockNetOfLive(UpdateStatus(s, orderId, Cancelled).store, stock)
  {
    var t := UpdateStatus(s, orderId, Cancelled).store;
    forall pid | pid in t.products ensures StockBalance(t, pid) == StockBalance(s, pid) {
      UpdateStatusCancelUnitsAt(s, orderId, pid);
    }
    StockBalancesKeepStock(s, t, stock);
  }

  /** ... but not PurchaseCount: once a live order with a line of pid is
      cancelled this way, PurchaseCount still counts that line. */
  lemma UpdateStatusCancelBreaksCounts(s: Store, sold: map<int, int>, orderId: int, pid: int)
    requires Consistent(s) && CountsLive(s, sold)
    requires orderId in s.orders && s.orders[orderId].status != Cancelled
    requires ItemKey(orderId, pid) in s.items && s.items[ItemKey(orderId, pid)].quantity > 0
    ensures !CountsLive(UpdateStatus(s, orderId, Cancelled).store, sold)
  {
    UpdateStatusCancelUnitsAt(s, orderId, pid);
    WrapShiftDiffers(sold[pid] + LiveUnits(s, pid), s.items[ItemKey(orderId, pid)].quantity);
  }

  /** UpdateStatus "Cancelled" on an order that is already cancelled puts its
      lines back to stock once more, so Quantity no longer matches the live
      orders. */
  lemma UpdateStatusRecancelBreaksStock(s: Store, stock: map<int, int>, orderId: int, pid: int)
    requires Consistent(s) && StockNetOfLive(s, stock)
    requires orderId in s.orders && s.orders[orderId].status == Cancelled
    requires ItemKey(orderId, pid) in s.items && s.items[ItemKey(orderId, pid)].quantity > 0
    ensures !StockNetOfLive(UpdateStatus(s, orderId, Cancelled).store, stock)
  {
    var t := UpdateStatus(s, orderId, Cancelled).store;
    UnitsBelowSame(s, t, s.nextOrderId, pid);
    RestockedTwiceBreaksStock(s, t, stock, pid, s.items[ItemKey(orderId, pid)].quantity);
  }

  /** UpdateStatus from "Cancelled" to any other status makes the order live
      again without taking its units out of stock, so Quantity no longer
      matches the live orders. */
  lemma UpdateStatusRevivalBreaksStock(s: Store, stock: map<int, int>, orderId: int, status: string, pid: int)
    requires Consistent(s) && StockNetOfLive(s, stock)
    requires orderId in s.orders && s.orders[orderId].status == Cancelled && status != Cancelled
    requires ItemKey(orderId, pid) in s.items && s.items[ItemKey(orderId, pid)].quantity > 0
    ensures !StockNetOfLive(UpdateStatus(s, orderId, status).store, stock)
  {
    var t := UpdateStatus(s, orderId, status).store;
    var q := s.items[ItemKey(orderId, pid)].quantity;
    UnitsBelowPoint(s, t, s.nextOrderId, pid, orderId);
    assert LiveUnits(t, pid) == LiveUnits(s, pid) + q;
    WrapShiftDiffers(stock[pid] - LiveUnits(s, pid), q);
  }

  /** Stock that comes back while the live units stay as they were leaves
      Quantity off the ledger. */
  lemma RestockedTwiceBreaksStock(s: Store, t: Store, stock: map<int, int>, pid: int, q: int32)
    requires StockNetOfLive(s, stock) && pid in s.products && pid in t.products && q > 0
    requires LiveUnits(t, pid) == LiveUnits(s, pid)
    requires t.products[pid].quantity == Wrap(s.products[pid].quantity + q)
    ensures !StockNetOfLive(t, stock)
  {
    WrapStepDiffers(stock[pid] - LiveUnits(s, pid), q);
  }

  // ---------------------------------------------------------------------------
  // The status change with both defects removed

  /** A cancelled order is final; cancelling a live order releases its lines
      exactly as the customer's Cancel does; other statuses are stored as given. */
  function UpdateStatusGuarded(s: Store, orderId: int, status: string): (r: Step)
    ensures orderId !in s.orders ==> r == Step(NotFound, s)
    ensures orderId in s.orders && s.orders[orderId].status == Cancelled ==> r == Step(InvalidTransition, s)
    ensures r.reply == Done <==> orderId in s.orders && s.orders[orderId].status != Cancelled
    ensures r.reply == Done ==>
      && r.store.orders == s.orders[orderId := s.orders[orderId].(status := status)]
      && r.store.items == s.items && r.store.users == s.users
      && r.store.nextOrderId == s.nextOrderId && r.store.nextProductId == s.nextProductId
      && r.store.products.Keys == s.products.Keys
    ensures r.reply == Done && status != Cancelled ==> r.store.products == s.products
    // "Cancelled" returns each line's quantity to stock and takes it off PurchaseCount
    ensures r.reply == Done && status == Cancelled ==>
      forall pid :: pid in s.products ==>
        r.store.products[pid] ==
          if ItemKey(orderId, pid) in s.items
          then
            var q := s.items[ItemKey(orderId, pid)].quantity;
            s.products[pid].(quantity := Wrap(s.products[pid].quantity + q),
                             purchaseCount := Wrap(s.products[pid].purchaseCount - q))
          else s.products[pid]
  {
    if orderId !in s.orders then Step(NotFound, s)
    else if s.orders[orderId].status == Cancelled then Step(InvalidTransition, s)
    else
      var products := if status == Cancelled then ReleaseLines(s, orderId, true) else s.products;
      Step(Done, s.(products := products,
                    orders := s.orders[orderId := s.orders[orderId].(status := status)]))
  }

  /** On a customer's own Pending order, the guarded "Cancelled" does exactly
      what the customer's Cancel does. */
  lemma UpdateStatusGuardedCancelIsCancel(s: Store, orderId: int, userId: int)
    requires Cancellable(s, orderId, userId)
    ensures UpdateStatusGuarded(s, orderId, Cancelled) == Cancel(s, orderId, userId)
  {
  }

  lemma UpdateStatusGuardedKeepsConsistent(s: Store, orderId: int, status: string)
    requires Consistent(s)
    ensures Consistent(UpdateStatusGuarded(s, orderId, status).store)
  {
  }

  lemma UpdateStatusGuardedBalancesAt(s: Store, orderId: int, status: string, pid: int)
    requires Consistent(s) && orderId in s.orders && s.orders[orderId].status != Cancelled
    requires pid in s.products
    ensures
      var t := UpdateStatusGuarded(s, orderId, status).store;
      && pid in t.products
      && SoldBalance(t, pid) == SoldBalance(s, pid)
      && StockBalance(t, pid) == StockBalance(s, pid)
  {
    var t := UpdateStatusGuarded(s, orderId, status).store;
    UnitsBelowPoint(s, t, s.nextOrderId, pid, orderId);
    ShiftKeepsBalances(s, t, pid, LiveLine(t, orderId, pid) - LiveLine(s, orderId, pid));
  }

  /** Whatever status it is given, the guarded status change keeps both ledger
      invariants. */
  lemma UpdateStatusGuardedKeepsLedger(s: Store, sold: map<int, int>, stock: map<int, int>,
                                       orderId: int, status: string)
    requires Consistent(s) && CountsLive(s, sold) && StockNetOfLive(s, stock)
    ensures
      var t := UpdateStatusGuarded(s, orderId, status).store;
      CountsLive(t, sold) && StockNetOfLive(t, stock)
  {
    var t := UpdateStatusGuarded(s, orderId, status).store;
    if orderId in s.orders && s.orders[orderId].status != Cancelled {
      forall pid | pid in t.products
        ensures SoldBalance(t, pid) == SoldBalance(s, pid) && StockBalance(t, pid) == StockBalance(s, pid)
      {
        UpdateStatusGuardedBalancesAt(s, orderId, status, pid);
      }
      SoldBalancesKeepCounts(s, t, sold);
      StockBalancesKeepStock(s, t, stock);
    }
  }

  /** Cancelling twice through the guarded status change releases stock once. */
  lemma UpdateStatusGuardedRecancelIsNoop(s: Store, orderId: int)
    requires UpdateStatusGuarded(s, orderId, Cancelled).reply == Done
    ensures
      var once := UpdateStatusGuarded(s, orderId, Cancelled).store;
      UpdateStatusGuarded(once, orderId, Cancelled) == Step(InvalidTransition, once)
  {
  }
}

=== FILE: orders.dfy ===
/** The order actions of Controllers/OrderController.cs as transitions of the
    store: placing an order (CreateOrder, POST), a customer's cancellation
    (Cancel), a manager's status change (UpdateStatus) and the manager's list
    of open orders (ManageOrders). The caller's user id and the clock are
    inputs. */
module Orders {
  import opened Int32
  import opened Models
  import opened Db
  import opened Sorting
  import opened Text

  /** A product after `quantity` of its units come back to stock. Cancel also
      takes them off PurchaseCount; UpdateStatus does not. */
  function Restock(p: Product, quantity: int32, uncount: bool): (r: Product)
    ensures r.quantity == Wrap(p.quantity + quantity)
    ensures r.purchaseCount == if uncount then Wrap(p.purchaseCount - quantity) else p.purchaseCount
    ensures r == p.(quantity := r.quantity, purchaseCount := r.purchaseCount)
  {
    p.(quantity := Wrap(p.quantity + quantity),
       purchaseCount := if uncount then Wrap(p.purchaseCount - quantity) else p.purchaseCount)
  }

  /** The loop over an order's lines: every product with a line in order oid
      is restocked by that line's quantity. Because an order has at most one
      line per product, the loop's order does not matter. Lines whose product
      no longer exists are skipped. */
  function ReleaseLines(s: Store, oid: int, uncount: bool): (m: map<int, Product>)
    ensures m.Keys == s.products.Keys
    ensures forall pid :: pid in m && ItemKey(oid, pid) in s.items ==>
      m[pid] == Restock(s.products[pid], s.items[ItemKey(oid, pid)].quantity, uncount)
    ensures forall pid :: pid in m && ItemKey(oid, pid) !in s.items ==> m[pid] == s.products[pid]
  {
    map pid | pid in s.products ::
      if ItemKey(oid, pid) in s.items
      then Restock(s.products[pid], s.items[ItemKey(oid, pid)].quantity, uncount)
      else s.products[pid]
  }

  // ---------------------------------------------------------------------------
  // CreateOrder (POST)

  /** The conditions under which CreateOrder places an order. */
  predicate CanPlace(s: Store, userId: int, productId: int, quantity: int32)
  {
    && quantity > 0
    && productId in s.products
    && quantity <= s.products[productId].quantity
    && userId in s.users
  }

  /** Places an order for `quantity` units of one product.

      The action saves twice: first the Order, then the OrderItem together
      with the product's counters. `itemSaveFails` stands for a database
      fault in the second save; the Order of the first save then stays, with
      no lines. Inserting an Order whose UserId names no user breaks the
      Order-User foreign key, so the first save fails and nothing is stored. */
  function CreateOrder(s: Store, userId: int, productId: int, quantity: int32, now: int,
                       itemSaveFails: bool): (r: Step)
    ensures quantity <= 0 ==> r == Step(QuantityTooSmall, s)
    ensures quantity > 0 && productId !in s.products ==> r == Step(ProductMissing, s)
    ensures quantity > 0 && productId in s.products && s.products[productId].quantity < quantity ==>
      r == Step(OnlyAvailable(s.products[productId].quantity), s)
    // an unknown user fails the first save on the Order-User foreign key
    ensures (quantity > 0 && productId in s.products && quantity <= s.products[productId].quantity
             && userId !in s.users) ==> r == Step(SaveFailed, s)
    ensures !CanPlace(s, userId, productId, quantity) ==> r.store == s
    ensures r.reply.Created? <==> CanPlace(s, userId, productId, quantity) && !itemSaveFails
    // the new order: a fresh key, the caller as owner, status Pending
    ensures r.reply.Created? ==> r.reply.id == s.nextOrderId
    ensures r.reply.Created? || r.reply == SaveFailed ==>
      r.store.orders.Keys <= s.orders.Keys + {s.nextOrderId}
    ensures r.reply.Created? ==>
      r.store.orders == s.orders[s.nextOrderId := Order(s.nextOrderId, now, Pending, userId)]
    // exactly one new line, priced at the product's current price
    ensures r.reply.Created? ==>
      && r.store.items.Keys == s.items.Keys + {ItemKey(s.nextOrderId, productId)}
      && r.store.items[ItemKey(s.nextOrderId, productId)] == OrderItem(quantity, s.products[productId].price)
      && (forall k :: k in s.items && k != ItemKey(s.nextOrderId, productId) ==> r.store.items[k] == s.items[k])
    // the product's counters move by exactly `quantity`; nothing else changes
    ensures r.reply.Created? ==>
      && r.store.products.Keys == s.products.Keys
      && r.store.products[productId] ==
           s.products[productId].(quantity := s.products[productId].quantity - quantity,
                                  purchaseCount := Wrap(s.products[productId].purchaseCount + quantity),
                                  lastPurchased := now)
      && (forall pid :: pid in s.products && pid != productId ==> r.store.products[pid] == s.products[pid])
    ensures r.reply.Created? || r.reply == SaveFailed ==> r.store.users == s.users
    ensures CanPlace(s, userId, productId, quantity) ==>
      r.store.nextOrderId == s.nextOrderId + 1 && r.store.nextProductId == s.nextProductId
    // a failed second save leaves an order without lines and the products as they were
    ensures CanPlace(s, userId, productId, quantity) && itemSaveFails ==>
      && r.reply == SaveFailed
      && r.store == s.(orders := s.orders[s.nextOrderId := Order(s.nextOrderId, now, Pending, userId)],
                       nextOrderId := s.nextOrderId + 1)
  {
    if quantity <= 0 then Step(QuantityTooSmall, s)
    else if productId !in s.products then Step(ProductMissing, s)
    else if s.products[productId].quantity < quantity then Step(OnlyAvailable(s.products[productId].quantity), s)
    else if userId !in s.users then Step(SaveFailed, s)
    else
      var oid := s.nextOrderId;
      var order := NewOrder().(id := oid, orderDate := now, userId := userId);
      var saved := s.(orders := s.orders[oid := order], nextOrderId := oid + 1);
      if itemSaveFails then Step(SaveFailed, saved)
      else
        var p := s.products[productId];
        var p' := p.(quantity := p.quantity - quantity,
                     purchaseCount := Wrap(p.purchaseCount + quantity),
                     lastPurchased := now);
        Step(Created(oid), saved.(products := s.products[productId := p'],
                                  items := s.items[ItemKey(oid, productId) := OrderItem(quantity, p.price)]))
  }

  /** Whatever it answers, CreateOrder keeps the keys and foreign keys intact. */
  lemma CreateOrderKeepsConsistent(s: Store, userId: int, productId: int, quantity: int32, now: int,
                                   itemSaveFails: bool)
    requires Consistent(s)
    ensures Consistent(CreateOrder(s, userId, productId, quantity, now, itemSaveFails).store)
  {
  }

  // ---------------------------------------------------------------------------
  // Cancel

  /** The order Cancel looks for: this id, owned by the caller, still
      Pending. The lookup runs in SQL Server, so the status is compared there. */
  predicate Cancellable(s: Store, orderId: int, userId: int)
  {
    orderId in s.orders && s.orders[orderId].userId == userId && SqlEquals(s.orders[orderId].status, Pending)
  }

  /** "Cancelled" is not "Pending" even to SQL Server, so a cancellable order is live. */
  lemma CancellableIsLive(s: Store, orderId: int, userId: int)
    requires Cancellable(s, orderId, userId)
    ensures s.orders[orderId].status != Cancelled
  {
  }

  /** SQL Server takes a status with a trailing blank, or in another case,
      for "Pending"; the statuses the application writes stay apart. */
  lemma PendingAsSqlServerCompares()
    ensures SqlEquals("Pending ", Pending) && SqlEquals("pending", Pending)
    ensures !SqlEquals(Cancelled, Pending) && !SqlEquals(Processing, Pending)
  {
  }

  /** A customer's cancellation of their own Pending order. */
  function Cancel(s: Store, orderId: int, userId: int): (r: Step)
    ensures !Cancellable(s, orderId, userId) ==> r == Step(NotFound, s)
    ensures Cancellable(s, orderId, userId) ==>
      && r.reply == Done
      && r.store.orders == s.orders[orderId := s.orders[orderId].(status := Cancelled)]
      && r.store.items == s.items && r.store.users == s.users
      && r.store.nextOrderId == s.nextOrderId && r.store.nextProductId == s.nextProductId
      && r.store.products.Keys == s.products.Keys
    // each line's quantity goes back to stock and off PurchaseCount
    ensures Cancellable(s, orderId, userId) ==>
      forall pid :: pid in s.products && ItemKey(orderId, pid) in s.items ==>
        var q := s.items[ItemKey(orderId, pid)].quantity;
        r.store.products[pid] == s.products[pid].(quantity := Wrap(s.products[pid].quantity + q),
                                                  purchaseCount := Wrap(s.products[pid].purchaseCount - q))
    ensures Cancellable(s, orderId, userId) ==>
      forall pid :: pid in s.products && ItemKey(orderId, pid) !in s.items ==>
        r.store.products[pid] == s.products[pid]
  {
    if !Cancellable(s, orderId, userId) then Step(NotFound, s)
    else
      Step(Done, s.(products := ReleaseLines(s, orderId, true),
                    orders := s.orders[orderId := s.orders[orderId].(status := Cancelled)]))
  }

  lemma CancelKeepsConsistent(s: Store, orderId: int, userId: int)
    requires Consistent(s)
    ensures Consistent(Cancel(s, orderId, userId).store)
  {
  }

  // ---------------------------------------------------------------------------
  // UpdateStatus

  /** Whether some line of the order names a product that is gone: looking it
      up yields null, and the action dereferences it. */
  predicate HasDanglingLine(s: Store, orderId: int)
  {
    exists k :: k in s.items && k.orderId == orderId && k.productId !in s.products
  }

  /** A manager's status change. Any string is stored as the new status, with
      no check of the current one. "Cancelled" puts each line's quantity back
      to stock, but leaves PurchaseCount alone. */
  function UpdateStatus(s: Store, orderId: int, status: string): (r: Step)
    ensures orderId !in s.orders ==> r == Step(NotFound, s)
    ensures orderId in s.orders && status == Cancelled && HasDanglingLine(s, orderId) ==>
      r == Step(Unhandled, s)
    ensures r.reply == Done <==>
      orderId in s.orders && !(status == Cancelled && HasDanglingLine(s, orderId))
    ensures r.reply == Done ==>
      && r.store.orders == s.orders[orderId := s.orders[orderId].(status := status)]
      && r.store.items == s.items && r.store.users == s.users
      && r.store.nextOrderId == s.nextOrderId && r.store.nextProductId == s.nextProductId
      && r.store.products.Keys == s.products.Keys
    ensures r.reply == Done && status != Cancelled ==> r.store.products == s.products
    ensures r.reply == Done && status == Cancelled ==>
      forall pid :: pid in s.products ==>
        r.store.products[pid] ==
          if ItemKey(orderId, pid) in s.items
          then s.products[pid].(quantity := Wrap(s.products[pid].quantity + s.items[ItemKey(orderId, pid)].quantity))
          else s.products[pid]
  {
    if orderId !in s.orders then Step(NotFound, s)
    else if status == Cancelled && HasDanglingLine(s, orderId) then Step(Unhandled, s)
    else
      var products := if status == Cancelled then ReleaseLines(s, orderId, false) else s.products;
      Step(Done, s.(products := products,
                    orders := s.orders[orderId := s.orders[orderId].(status := status)]))
  }

  lemma UpdateStatusKeepsConsistent(s: Store, orderId: int, status: string)
    requires Consistent(s)
    ensures Consistent(UpdateStatus(s, orderId, status).store)
  {
  }

  /** In a consistent store no line dangles, so UpdateStatus never fails. */
  lemma UpdateStatusTotalWhenConsistent(s: Store, orderId: int, status: string)
    requires Consistent(s)
    requires orderId in s.orders
    ensures UpdateStatus(s, orderId, status).reply == Done
  {
  }

  // ---------------------------------------------------------------------------
  // ManageOrders

  /** `OrderBy(o => o.OrderDate)` */
  function ByOrderDate(): (Order, Order) -> bool
  {
    (a: Order, b: Order) => a.orderDate <= b.orderDate
  }

  /** `Where(o => o.Status == "Pending")`, evaluated by SQL Server. */
  function IsPending(): Order -> bool
  {
    (o: Order) => SqlEquals(o.status, Pending)
  }

  /** The manager's list: the Pending orders, oldest first. `table` is the
      Orders table in the order the database returns it. */
  function ManageOrders(table: seq<Order>): (r: seq<Order>)
    ensures forall o :: o in r <==> o in table && SqlEquals(o.status, Pending)
    ensures forall o :: multiset(r)[o] == if SqlEquals(o.status, Pending) then multiset(table)[o] else 0
    ensures forall i, j :: 0 <= i < j < |r| ==> r[i].orderDate <= r[j].orderDate
  {
    var pending := Filter(table, IsPending());
    var sorted := Sort(pending, ByOrderDate());
    assert forall o :: o in sorted <==> o in multiset(pending);
    sorted
  }
}

=== FILE: products.dfy ===
/** The catalog actions of Controllers/ProductController.cs that change the
    store: Create and Edit with their image check, AdjustStock and
    DeleteConfirmed. Only the accept/reject decision on an upload is kept; the
    file written, the GUID it is named by and the clock are inputs. */
module Catalog {
  import opened Int32
  import opened Models
  import opened Db
  import opened Ledger
  import opened Text

  // ---------------------------------------------------------------------------
  // Image check

  /** An uploaded file: its client-side name and its length in bytes. */
  datatype Upload = Upload(fileName: string, length: nat)

  /** The outcome of the image check: no file to store, a file accepted under
      its lower-cased extension, or a rejection. */
  datatype ImageCheck = NoImage | Accepted(extension: string) | Rejected(problem: ImageProblem)

  const AllowedExtensions: seq<string> := [".jpg", ".jpeg", ".png", ".gif"]

  /** 5 MB */
  const MaxImageBytes: nat := 5 * 1024 * 1024

  /** Path separators as Windows paths use them. */
  predicate IsSeparator(c: char)
  {
    c == '/' || c == '\\'
  }

  /** The suffix of p starting at the dot at index j is an extension: the dot
      is not the last character, and no dot or separator follows it. */
  predicate IsExtensionAt(p: string, j: int)
  {
    && 0 <= j < |p| - 1
    && p[j] == '.'
    && forall k :: j < k < |p| ==> p[k] != '.' && !IsSeparator(p[k])
  }

  /** Path.GetExtension: scans p[..i] from its end for a dot, stopping at a
      separator. A dot in the last position of p gives no extension. */
  function ExtensionFrom(p: string, i: nat): string
    requires i <= |p|
    decreases i
  {
    if i == 0 then ""
    else if p[i - 1] == '.' then (if i == |p| then "" else p[i - 1..])
    else if IsSeparator(p[i - 1]) then ""
    else ExtensionFrom(p, i - 1)
  }

  function Extension(p: string): string
  {
    ExtensionFrom(p, |p|)
  }

  /** The scan returns the suffix from the one dot that starts an extension,
      and nothing when no dot does. */
  lemma {:induction false} ExtensionFromFindsLastDot(p: string, i: nat)
    requires i <= |p|
    requires forall k :: i <= k < |p| ==> p[k] != '.' && !IsSeparator(p[k])
    ensures forall j :: IsExtensionAt(p, j) ==> ExtensionFrom(p, i) == p[j..]
    ensures (forall j :: !IsExtensionAt(p, j)) ==> ExtensionFrom(p, i) == ""
    decreases i
  {
    if i == 0 {
    } else if p[i - 1] == '.' {
      if i == |p| {
        forall j ensures !IsExtensionAt(p, j) {
          if 0 <= j < |p| - 1 {
            assert p[|p| - 1] == '.';
          }
        }
      } else {
        assert IsExtensionAt(p, i - 1);
        forall j | j != i - 1 ensures !IsExtensionAt(p, j) {
          if 0 <= j < i - 1 {
            assert p[i - 1] == '.';
          }
        }
      }
    } else if IsSeparator(p[i - 1]) {
      forall j ensures !IsExtensionAt(p, j) {
        if 0 <= j < i - 1 {
          assert IsSeparator(p[i - 1]);
        }
      }
    } else {
      ExtensionFromFindsLastDot(p, i - 1);
    }
  }

  /** Path.GetExtension characterised without the scan: the suffix from the
      dot that starts an extension, or "" when there is none. */
  lemma ExtensionIsLastDotSuffix(p: string)
    ensures forall j :: IsExtensionAt(p, j) ==> Extension(p) == p[j..]
    ensures Extension(p) == "" <==> forall j :: !IsExtensionAt(p, j)
  {
    ExtensionFromFindsLastDot(p, |p|);
  }

  /** The file name ends with `suffix`, compared case-insensitively. */
  predicate EndsWithIgnoringCase(name: string, suffix: string)
  {
    |suffix| <= |name| && LowerAscii(name[|name| - |suffix|..]) == suffix
  }

  /** The image validation both Create and Edit apply when a non-empty file is posted:
      first the extension, then the size. */
  function CheckImage(file: Nullable<Upload>): (r: ImageCheck)
    ensures r.NoImage? <==> file.Null? || file.value.length == 0
    ensures r.Accepted? <==>
      && file.NonNull? && 0 < file.value.length <= MaxImageBytes
      && LowerAscii(Extension(file.value.fileName)) in AllowedExtensions
    ensures r.Accepted? ==> r.extension in AllowedExtensions
    ensures r.Accepted? ==> r.extension == LowerAscii(Extension(file.value.fileName))
    // the extension is checked before the size
    ensures file.NonNull? && file.value.length > 0 && LowerAscii(Extension(file.value.fileName)) !in AllowedExtensions ==>
      r == Rejected(BadExtension)
    ensures r == Rejected(TooLarge) ==> file.value.length > MaxImageBytes
    ensures r.Rejected? ==> r.problem == BadExtension || r.problem == TooLarge
  {
    match file
    case Null => NoImage
    case NonNull(f) =>
      if f.length == 0 then NoImage
      else
        var extension := LowerAscii(Extension(f.fileName));
        if extension !in AllowedExtensions then Rejected(BadExtension)
        else if f.length > MaxImageBytes then Rejected(TooLarge)
        else Accepted(extension)
  }

  lemma LowerCharIsLetterOrSelf(c: char)
    ensures LowerChar(c) == '.' ==> c == '.'
    ensures 'a' <= LowerChar(c) <= 'z' ==> ('a' <= c <= 'z' || 'A' <= c <= 'Z')
  {
  }

  /** A name whose last characters spell an allowed extension, in any case,
      has that extension: nothing in ".jpg", ".jpeg", ".png" or ".gif" after
      the dot is a dot or a separator. */
  lemma EndingGivesExtension(name: string, e: string)
    requires e in AllowedExtensions && EndsWithIgnoringCase(name, e)
    ensures LowerAscii(Extension(name)) == e
  {
    var j := |name| - |e|;
    var tail := name[j..];
    assert LowerChar(name[j]) == LowerAscii(tail)[0] == '.';
    LowerCharIsLetterOrSelf(name[j]);
    forall k | j < k < |name| ensures name[k] != '.' && !IsSeparator(name[k]) {
      assert LowerChar(name[k]) == LowerAscii(tail)[k - j] == e[k - j];
      assert 'a' <= e[k - j] <= 'z';
      LowerCharIsLetterOrSelf(name[k]);
    }
    assert IsExtensionAt(name, j);
    ExtensionIsLastDotSuffix(name);
  }

  /** The extension test accepts exactly the names that end, in any case, in
      one of the four allowed extensions. */
  lemma ExtensionAllowedIffEndsWith(name: string)
    ensures LowerAscii(Extension(name)) in AllowedExtensions <==>
      exists e :: e in AllowedExtensions && EndsWithIgnoringCase(name, e)
  {
    var ext := LowerAscii(Extension(name));
    if ext in AllowedExtensions {
      ExtensionIsLastDotSuffix(name);
      assert Extension(name) != "";
      var j :| IsExtensionAt(name, j);
      assert Extension(name) == name[j..];
      assert EndsWithIgnoringCase(name, ext);
    }
    if e :| e in AllowedExtensions && EndsWithIgnoringCase(name, e) {
      EndingGivesExtension(name, e);
    }
  }

  /** Upper-case extensions pass; a large enough file does not. */
  lemma ImageCheckCaseAndSize()
    ensures CheckImage(NonNull(Upload("Photo.JPG", 1000))) == Accepted(".jpg")
    ensures CheckImage(NonNull(Upload("photo.png", MaxImageBytes + 1))) == Rejected(TooLarge)
  {
    ExtensionIsLastDotSuffix("Photo.JPG");
    assert IsExtensionAt("Photo.JPG", 5);
    assert Extension("Photo.JPG") == ".JPG";
    assert LowerAscii(".JPG") == ".jpg" by {
      var l := LowerAscii(".JPG");
      assert l[0] == '.' && l[1] == 'j' && l[2] == 'p' && l[3] == 'g';
    }
    ExtensionIsLastDotSuffix("photo.png");
    assert IsExtensionAt("photo.png", 5);
    assert Extension("photo.png") == ".png";
    assert LowerAscii(".png") == ".png" by {
      var l := LowerAscii(".png");
      assert l[0] == '.' && l[1] == 'p' && l[2] == 'n' && l[3] == 'g';
    }
  }

  /** Only the last dot counts, a trailing dot gives no extension, and a dot
      before a separator belongs to a directory name. */
  lemma ImageCheckRejectsOtherNames()
    ensures CheckImage(NonNull(Upload("photo.png.exe", 1000))) == Rejected(BadExtension)
    ensures CheckImage(NonNull(Upload("photo.", 1000))) == Rejected(BadExtension)
    ensures CheckImage(NonNull(Upload("dir.png/photo", 1000))) == Rejected(BadExtension)
  {
    ExtensionIsLastDotSuffix("photo.png.exe");
    assert IsExtensionAt("photo.png.exe", 9);
    ExtensionIsLastDotSuffix("photo.");
    forall j ensures !IsExtensionAt("photo.", j) {
      if 0 <= j < 5 {
        assert "photo."[j] != '.';
      }
    }
    ExtensionIsLastDotSuffix("dir.png/photo");
    forall j ensures !IsExtensionAt("dir.png/photo", j) {
      if 0 <= j < 7 {
        assert IsSeparator("dir.png/photo"[7]);
      } else if 7 <= j < 13 {
        assert "dir.png/photo"[j] != '.';
      }
    }
  }

  /** The image URL a stored product gets: a stored upload is named by a fresh
      stem and its extension; otherwise the fallback stays. */
  function ImageUrlAfter(check: ImageCheck, stem: string, fallback: string): string
  {
    if check.Accepted? then "/images/" + stem + check.extension else fallback
  }

  // ---------------------------------------------------------------------------
  // Create and Edit

  /** The posted product form: the fields both actions bind. */
  datatype ProductForm = ProductForm(
    id: int,
    name: string,
    price: int,
    quantity: int32,
    description: string,
    imageUrl: string)

  /** Create (POST). `formValid` is ModelState.IsValid, `now` the clock and
      `stem` the GUID an accepted file is named by. The new row takes the next
      identity value; ImageUrl is not bound, so it is the placeholder unless a
      file is stored; PurchaseCount starts at 0. */
  function Create(s: Store, form: ProductForm, file: Nullable<Upload>, formValid: bool,
                  now: int, stem: string): (r: Step)
    ensures !formValid ==> r == Step(InvalidForm, s)
    ensures formValid && CheckImage(file).Rejected? ==> r == Step(ImageRejected(CheckImage(file).problem), s)
    ensures r.reply.Created? <==> formValid && !CheckImage(file).Rejected?
    ensures !r.reply.Created? ==> r.store == s
    ensures r.reply.Created? ==>
      var id := s.nextProductId;
      && r.reply.id == id
      && id in r.store.products
      && r.store.products == s.products[id := r.store.products[id]]
      && r.store.products[id] ==
           Product(id, form.name, form.price, form.quantity,
                   if file.NonNull? && CheckImage(file).Accepted?
                   then "/images/" + stem + CheckImage(file).extension else PlaceholderImage,
                   form.description, now, 0)
      && r.store.nextProductId == id + 1
      && r.store.orders == s.orders && r.store.items == s.items && r.store.users == s.users
    ensures Consistent(s) && r.reply.Created? ==> r.reply.id !in s.products
    ensures Consistent(s) ==> Consistent(r.store)
  {
    if !formValid then Step(InvalidForm, s)
    else
      var check := CheckImage(file);
      if check.Rejected? then Step(ImageRejected(check.problem), s)
      else
        var id := s.nextProductId;
        var p := NewProduct(now).(id := id, name := form.name, price := form.price, quantity := form.quantity,
                                  description := form.description,
                                  imageUrl := ImageUrlAfter(check, stem, PlaceholderImage));
        Step(Created(id), s.(products := s.products[id := p], nextProductId := id + 1))
  }

  /** A new product has no order lines, so the ledger extends to it with a
      sold start value of 0 and its posted Quantity as stock start value. */
  lemma CreateExtendsLedger(s: Store, sold: map<int, int>, stock: map<int, int>, form: ProductForm,
                            file: Nullable<Upload>, formValid: bool, now: int, stem: string)
    requires Consistent(s) && CountsLive(s, sold) && StockNetOfLive(s, stock)
    requires Create(s, form, file, formValid, now, stem).reply.Created?
    ensures
      var id := s.nextProductId;
      var t := Create(s, form, file, formValid, now, stem).store;
      CountsLive(t, sold[id := 0]) && StockNetOfLive(t, stock[id := form.quantity])
  {
    var id := s.nextProductId;
    var t := Create(s, form, file, formValid, now, stem).store;
    AddProductExtendsLedger(s, t, sold, stock, id, t.products[id]);
  }

  /** The row an Edit inserts when the posted Id is 0. */
  function InsertedRow(id: int, form: ProductForm, file: Nullable<Upload>, now: int, stem: string): Product
  {
    Product(id, form.name, form.price, form.quantity,
            if CheckImage(file).Accepted? then "/images/" + stem + CheckImage(file).extension else form.imageUrl,
            form.description, now, 0)
  }

  /** Edit (POST) as its fields are meant to be saved. The route id must match
      the bound Id. `Update` tracks a product whose Id is 0, the unset value of
      a database-generated key, as a new row: it is inserted under the next
      identity value and the action reports success. An update of a row that
      does not exist affects nothing, which EF reports as a concurrency
      failure; the action then finds no such product and answers NotFound.
      The posted ImageUrl is kept unless a new file is stored. PurchaseCount
      and LastPurchasedDate of an existing row, which the form does not carry,
      stay as they were. */
  function EditKeepingCounters(s: Store, routeId: int, form: ProductForm, file: Nullable<Upload>,
                               formValid: bool, now: int, stem: string): (r: Step)
    ensures routeId != form.id ==> r == Step(NotFound, s)
    ensures routeId == form.id && !formValid ==> r == Step(InvalidForm, s)
    ensures routeId == form.id && formValid && CheckImage(file).Rejected? ==>
      r == Step(ImageRejected(CheckImage(file).problem), s)
    ensures routeId == form.id && formValid && !CheckImage(file).Rejected? && form.id != 0 && form.id !in s.products ==>
      r == Step(NotFound, s)
    ensures r.reply == Done <==>
      routeId == form.id && formValid && !CheckImage(file).Rejected? && (form.id == 0 || form.id in s.products)
    ensures r.reply != Done ==> r.store == s
    // Id 0: a new row under the next identity value, with fresh counters
    ensures r.reply == Done && form.id == 0 ==>
      var id := s.nextProductId;
      r.store == s.(products := s.products[id := InsertedRow(id, form, file, now, stem)], nextProductId := id + 1)
    ensures r.reply == Done && form.id != 0 ==>
      && form.id in r.store.products
      && r.store == s.(products := s.products[form.id := r.store.products[form.id]])
      && r.store.products[form.id] ==
           s.products[form.id].(name := form.name, price := form.price, quantity := form.quantity,
                                description := form.description,
                                imageUrl := InsertedRow(form.id, form, file, now, stem).imageUrl)
    ensures Consistent(s) ==> Consistent(r.store)
  {
    if routeId != form.id then Step(NotFound, s)
    else if !formValid then Step(InvalidForm, s)
    else
      var check := CheckImage(file);
      if check.Rejected? then Step(ImageRejected(check.problem), s)
      else if form.id == 0 then
        var id := s.nextProductId;
        var p := NewProduct(now).(id := id, name := form.name, price := form.price, quantity := form.quantity,
                                  description := form.description,
                                  imageUrl := ImageUrlAfter(check, stem, form.imageUrl));
        Step(Done, s.(products := s.products[id := p], nextProductId := id + 1))
      else if form.id !in s.products then Step(NotFound, s)
      else
        var p := s.products[form.id];
        var p' := p.(name := form.name, price := form.price, quantity := form.quantity,
                     description := form.description,
                     imageUrl := ImageUrlAfter(check, stem, form.imageUrl));
        Step(Done, s.(products := s.products[form.id := p']))
  }

  /** Edit (POST) as written. The bound product is a `new Product()` filled
      from the form, and `Update` writes every column of it: PurchaseCount,
      which the form does not carry, is saved as 0, and LastPurchasedDate as
      the clock reading `now` of its initialiser. */
  function Edit(s: Store, routeId: int, form: ProductForm, file: Nullable<Upload>, formValid: bool,
                now: int, stem: string): (r: Step)
    ensures r.reply == EditKeepingCounters(s, routeId, form, file, formValid, now, stem).reply
    ensures r.reply != Done ==> r.store == s
    ensures r.reply == Done && form.id == 0 ==>
      var id := s.nextProductId;
      r.store == s.(products := s.products[id := InsertedRow(id, form, file, now, stem)], nextProductId := id + 1)
    ensures r.reply == Done && form.id != 0 ==>
      r.store == s.(products := s.products[form.id := InsertedRow(form.id, form, file, now, stem)])
    ensures Consistent(s) ==> Consistent(r.store)
  {
    var r := EditKeepingCounters(s, routeId, form, file, formValid, now, stem);
    if r.reply != Done || form.id == 0 then r
    else
      var p := r.store.products[form.id];
      Step(Done, s.(products := s.products[form.id := p.(id := form.id, purchaseCount := 0, lastPurchased := now)]))
  }

  /** An Edit posted with Id 0 inserts the row that Create would, except that
      without a stored file it keeps the posted ImageUrl where Create puts the
      placeholder. A rejected file is refused by both alike. */
  lemma EditZeroIsCreate(s: Store, form: ProductForm, file: Nullable<Upload>, formValid: bool,
                         now: int, stem: string)
    requires form.id == 0
    ensures
      var e := Edit(s, 0, form, file, formValid, now, stem);
      var c := Create(s, form, file, formValid, now, stem);
      var id := s.nextProductId;
      && (!formValid ==> e.reply == InvalidForm && c.reply == InvalidForm && e.store == c.store == s)
      && (formValid && CheckImage(file).Rejected? ==> e == c)
      && (formValid && !CheckImage(file).Rejected? ==>
            && e.reply == Done && c.reply == Created(id)
            && e.store == c.store.(products := c.store.products[id := c.store.products[id].(
                 imageUrl := ImageUrlAfter(CheckImage(file), stem, form.imageUrl))]))
  {
  }

  /** The form of a product as the edit page shows it. */
  function FormOf(p: Product): ProductForm
  {
    ProductForm(p.id, p.name, p.price, p.quantity, p.description, p.imageUrl)
  }

  /** As written, saving a product's edit page unchanged forgets its sales:
      once PurchaseCount is not 0 it no longer counts the live orders. */
  lemma EditForgetsSales(s: Store, sold: map<int, int>, id: int, now: int, stem: string)
    requires Consistent(s) && CountsLive(s, sold)
    requires id in s.products && s.products[id].purchaseCount != 0
    ensures
      var t := Edit(s, id, FormOf(s.products[id]), Null, true, now, stem).store;
      && t.products[id].purchaseCount == 0
      && !CountsLive(t, sold)
  {
    var t := Edit(s, id, FormOf(s.products[id]), Null, true, now, stem).store;
    UnitsBelowSame(s, t, s.nextOrderId, id);
    assert LiveUnits(t, id) == LiveUnits(s, id);
  }

  /** In the seeded store, saving the Fire TV Stick 4K's page unchanged turns
      its PurchaseCount of 65 into 0. */
  lemma SeedEditForgetsSales(now: int)
    ensures
      var s := Seed(now);
      && s.products[3].purchaseCount == 65
      && Edit(s, 3, FormOf(s.products[3]), Null, true, now, "").store.products[3].purchaseCount == 0
  {
    EditUnchangedResetsCount(Seed(now), 3, now, "");
  }

  /** As written, an unchanged edit page saves PurchaseCount as 0 and
      LastPurchasedDate as the time of the save. */
  lemma EditUnchangedResetsCount(s: Store, id: int, now: int, stem: string)
    requires Consistent(s) && id in s.products
    ensures
      var r := Edit(s, id, FormOf(s.products[id]), Null, true, now, stem);
      && r.reply == Done && id in r.store.products
      && r.store.products[id] == s.products[id].(purchaseCount := 0, lastPurchased := now)
  {
  }

  /** Posting back a product's own values without a file changes nothing. */
  lemma EditUnchangedFormIsNoop(s: Store, id: int, now: int, stem: string)
    requires Consistent(s) && id in s.products
    ensures EditKeepingCounters(s, id, FormOf(s.products[id]), Null, true, now, stem) == Step(Done, s)
  {
    var r := EditKeepingCounters(s, id, FormOf(s.products[id]), Null, true, now, stem);
    assert r.store.products == s.products;
  }

  /** An edit of an existing row keeps PurchaseCount counting the live
      orders, and keeps Quantity net of them against a stock start value
      re-based on the posted Quantity. An edit posted with Id 0 extends the
      ledger with its new row, as Create does. */
  lemma EditKeepsLedger(s: Store, sold: map<int, int>, stock: map<int, int>, routeId: int,
                        form: ProductForm, file: Nullable<Upload>, formValid: bool, now: int, stem: string)
    requires Consistent(s) && CountsLive(s, sold) && StockNetOfLive(s, stock)
    requires EditKeepingCounters(s, routeId, form, file, formValid, now, stem).reply == Done
    ensures form.id != 0 ==>
      var t := EditKeepingCounters(s, routeId, form, file, formValid, now, stem).store;
      && CountsLive(t, sold)
      && StockNetOfLive(t, stock[form.id := form.quantity + LiveUnits(s, form.id)])
    ensures form.id == 0 ==>
      var id := s.nextProductId;
      var t := EditKeepingCounters(s, routeId, form, file, formValid, now, stem).store;
      CountsLive(t, sold[id := 0]) && StockNetOfLive(t, stock[id := form.quantity])
  {
    var t := EditKeepingCounters(s, routeId, form, file, formValid, now, stem).store;
    if form.id == 0 {
      var id := s.nextProductId;
      AddProductExtendsLedger(s, t, sold, stock, id, t.products[id]);
    } else {
      ReplaceProductKeepsLedger(s, t, sold, stock, form.id, t.products[form.id]);
    }
  }


  // ---------------------------------------------------------------------------
  // AdjustStock

  /** AdjustStock: adds `adjustment` to Quantity with C#'s unchecked int
      addition and no lower bound. */
  function AdjustStock(s: Store, id: int, adjustment: int32): (r: Step)
    ensures id !in s.products ==> r == Step(NotFound, s)
    ensures id in s.products ==>
      && r.reply == Done
      && id in r.store.products
      && r.store == s.(products := s.products[id := s.products[id].(quantity := r.store.products[id].quantity)])
      && r.store.products[id].quantity == Wrap(s.products[id].quantity + adjustment)
    ensures Consistent(s) ==> Consistent(r.store)
  {
    if id !in s.products then Step(NotFound, s)
    else
      var p := s.products[id];
      Step(Done, s.(products := s.products[id := p.(quantity := Wrap(p.quantity + adjustment))]))
  }

  /** Adjusting by a and then by -a gives the store back. */
  lemma AdjustStockRoundTrip(s: Store, id: int, a: int32)
    ensures AdjustStock(AdjustStock(s, id, a).store, id, Negate(a)).store == s
  {
    if id in s.products {
      NegateUndoes(s.products[id].quantity, a);
      var t := AdjustStock(AdjustStock(s, id, a).store, id, Negate(a)).store;
      assert t.products == s.products;
    }
  }

  /** Nothing stops the stock going below zero. */
  lemma AdjustStockCanGoNegative(s: Store, id: int, a: int32)
    requires id in s.products
    requires MinValue <= s.products[id].quantity + a < 0
    ensures AdjustStock(s, id, a).store.products[id].quantity < 0
  {
  }

  /** In the seeded store, taking 51 units off the 50 Fire TV Sticks 4K leaves -1. */
  lemma SeedAdjustBelowZero(now: int)
    ensures AdjustStock(Seed(now), 3, -51).store.products[3].quantity == -1
  {
    AdjustStockCanGoNegative(Seed(now), 3, -51);
  }

  /** AdjustStock changes no order line, so no product's live units. */
  lemma AdjustStockKeepsLiveUnits(s: Store, id: int, a: int32, pid: int)
    ensures LiveUnits(AdjustStock(s, id, a).store, pid) == LiveUnits(s, pid)
  {
    UnitsBelowSame(s, AdjustStock(s, id, a).store, s.nextOrderId, pid);
  }

  /** AdjustStock leaves PurchaseCount counting the live orders ... */
  lemma AdjustStockKeepsCounts(s: Store, sold: map<int, int>, id: int, a: int32)
    requires CountsLive(s, sold)
    ensures CountsLive(AdjustStock(s, id, a).store, sold)
  {
    var t := AdjustStock(s, id, a).store;
    forall pid | pid in t.products ensures SoldBalance(t, pid) == SoldBalance(s, pid) {
      AdjustStockKeepsLiveUnits(s, id, a, pid);
    }
    SoldBalancesKeepCounts(s, t, sold);
  }

  /** ... and Quantity net of them against a stock start value moved by the
      adjustment. */
  lemma AdjustStockShiftsStock(s: Store, stock: map<int, int>, id: int, a: int32)
    requires StockNetOfLive(s, stock) && id in s.products
    ensures StockNetOfLive(AdjustStock(s, id, a).store, stock[id := stock[id] + a])
  {
    var t := AdjustStock(s, id, a).store;
    var moved := stock[id := stock[id] + a];
    forall pid | pid in t.products
      ensures pid in moved && t.products[pid].quantity == Wrap(moved[pid] - LiveUnits(t, pid))
    {
      AdjustStockShiftsStockAt(s, stock, id, a, pid);
    }
  }

  lemma AdjustStockShiftsStockAt(s: Store, stock: map<int, int>, id: int, a: int32, pid: int)
    requires StockNetOfLive(s, stock) && id in s.products && pid in s.products
    ensures
      var t := AdjustStock(s, id, a).store;
      t.products[pid].quantity == Wrap((if pid == id then stock[pid] + a else stock[pid]) - LiveUnits(t, pid))
  {
    AdjustStockKeepsLiveUnits(s, id, a, pid);
    if pid == id {
      var x: int := stock[id] - LiveUnits(s, id);
      assert s.products[id].quantity == Wrap(x);
      WrapAdd(x, a);
    }
  }

  // ---------------------------------------------------------------------------
  // DeleteConfirmed

  /** The store without the order lines of product pid. */
  function RemoveLinesOf(s: Store, pid: int): (t: Store)
    ensures t == s.(items := t.items)
    ensures forall k :: k in t.items <==> k in s.items && k.productId != pid
    ensures forall k :: k in t.items ==> t.items[k] == s.items[k]
  {
    s.(items := map k | k in s.items && k.productId != pid :: s.items[k])
  }

  /** DeleteConfirmed (POST Delete): removes the product's order lines and then
      the product, in one save. */
  function DeleteConfirmed(s: Store, id: int): (r: Step)
    ensures id !in s.products ==> r == Step(NotFound, s)
    ensures id in s.products ==> r.reply == Done
    ensures r.store.products.Keys == s.products.Keys - {id}
    ensures forall pid :: pid in r.store.products ==> r.store.products[pid] == s.products[pid]
    ensures id in s.products ==> forall k :: k in r.store.items <==> k in s.items && k.productId != id
    ensures Consistent(s) ==> forall k :: k in r.store.items ==> k.productId != id
    ensures forall k :: k in r.store.items ==> r.store.items[k] == s.items[k]
    ensures r.store.orders == s.orders && r.store.users == s.users
    ensures r.store.nextOrderId == s.nextOrderId && r.store.nextProductId == s.nextProductId
    ensures Consistent(s) ==> Consistent(r.store)
  {
    if id !in s.products then Step(NotFound, s)
    else
      var t := RemoveLinesOf(s, id);
      Step(Done, t.(products := t.products - {id}))
  }

  /** With its lines gone, the product's deletion passes the restrict rule of
      the Product-OrderItem relationship: DeleteConfirmed is the database's
      DeleteProduct applied after removing the lines. */
  lemma DeleteConfirmedIsRestrictedDelete(s: Store, id: int)
    requires id in s.products
    ensures DeleteProduct(RemoveLinesOf(s, id), id).reply == Done
    ensures DeleteProduct(RemoveLinesOf(s, id), id).store == DeleteConfirmed(s, id).store
  {
  }

  /** Deleting a product leaves the ledger of every other product as it was:
      their lines all stay. */
  lemma DeleteConfirmedKeepsLedger(s: Store, sold: map<int, int>, stock: map<int, int>, id: int)
    requires CountsLive(s, sold) && StockNetOfLive(s, stock)
    ensures
      var t := DeleteConfirmed(s, id).store;
      CountsLive(t, sold) && StockNetOfLive(t, stock)
  {
    var t := DeleteConfirmed(s, id).store;
    forall pid | pid in t.products ensures LiveUnits(t, pid) == LiveUnits(s, pid) {
      forall o | 0 <= o < s.nextOrderId ensures LiveLine(s, o, pid) == LiveLine(t, o, pid) {
        assert ItemKey(o, pid).productId != id;
      }
      UnitsBelowSame(s, t, s.nextOrderId, pid);
    }
  }
}

=== FILE: sorting.dfy ===
/** The LINQ operators the queries use — Where, OrderBy with a key or a
    comparison, Take — over sequences. A comparison `le` says "a may come
    before b"; ascending and descending orders are both written this way. */
module Sorting {

  ghost predicate TotalPreorder<T(!new)>(le: (T, T) -> bool)
  {
    && (forall a, b :: le(a, b) || le(b, a))
    && (forall a, b, c :: le(a, b) && le(b, c) ==> le(a, c))
  }

  predicate SortedBy<T>(xs: seq<T>, le: (T, T) -> bool)
  {
    forall i, j :: 0 <= i < j < |xs| ==> le(xs[i], xs[j])
  }

  /** Puts x before the first element it may precede. */
  function Insert<T(!new)>(x: T, xs: seq<T>, le: (T, T) -> bool): (r: seq<T>)
    requires TotalPreorder(le)
    requires SortedBy(xs, le)
    ensures SortedBy(r, le)
    ensures multiset(r) == multiset(xs) + multiset{x}
    decreases |xs|
  {
    if xs == [] then [x]
    else if le(x, xs[0]) then [x] + xs
    else
      var rest := Insert(x, xs[1..], le);
      assert xs == [xs[0]] + xs[1..];
      assert forall y :: y in multiset(rest) ==> le(xs[0], y) by {
        forall y | y in multiset(rest) ensures le(xs[0], y) {
          if y != x {
            assert y in multiset(xs[1..]);
            var j :| 0 <= j < |xs[1..]| && xs[1..][j] == y;
            assert xs[j + 1] == y;
          }
        }
      }
      assert forall j :: 0 < j < |[xs[0]] + rest| ==> ([xs[0]] + rest)[j] in multiset(rest) by {
        forall j | 0 < j < |[xs[0]] + rest| ensures ([xs[0]] + rest)[j] in multiset(rest) {
          assert ([xs[0]] + rest)[j] == rest[j - 1];
        }
      }
      [xs[0]] + rest
  }

  /** Insertion sort: a sorted permutation of xs. */
  function Sort<T(!new)>(xs: seq<T>, le: (T, T) -> bool): (r: seq<T>)
    requires TotalPreorder(le)
    ensures SortedBy(r, le)
    ensures multiset(r) == multiset(xs)
    decreases |xs|
  {
    if xs == [] then []
    else
      assert xs == [xs[0]] + xs[1..];
      Insert(xs[0], Sort(xs[1..], le), le)
  }

  /** `Where`: keeps, in order, the elements that satisfy keep, each as often
      as it occurs. */
  function Filter<T(!new)>(xs: seq<T>, keep: T -> bool): (r: seq<T>)
    ensures forall x :: multiset(r)[x] == if keep(x) then multiset(xs)[x] else 0
    ensures forall x :: x in r <==> x in xs && keep(x)
    decreases |xs|
  {
    if xs == [] then []
    else
      assert xs == [xs[0]] + xs[1..];
      var rest := Filter(xs[1..], keep);
      if keep(xs[0]) then [xs[0]] + rest else rest
  }

  /** In a sorted sequence, every element of a prefix may come before every
      element the prefix leaves out. */
  lemma PrefixPrecedesRest<T>(xs: seq<T>, n: nat, le: (T, T) -> bool, p: T, q: T)
    requires SortedBy(xs, le) && n <= |xs|
    requires p in xs[..n] && multiset(xs[..n])[q] < multiset(xs)[q]
    ensures le(p, q)
  {
    assert xs == xs[..n] + xs[n..];
    assert multiset(xs) == multiset(xs[..n]) + multiset(xs[n..]);
    assert q in multiset(xs[n..]);
    var j :| 0 <= j < |xs[n..]| && xs[n..][j] == q;
    var i :| 0 <= i < n && xs[..n][i] == p;
    assert xs[i] == p && xs[n + j] == q;
  }

  /** `Take(n)`: the first n elements, or all of them when there are fewer. */
  function Take<T>(xs: seq<T>, n: nat): (r: seq<T>)
    ensures |r| == if |xs| < n then |xs| else n
    ensures r <= xs
  {
    if |xs| < n then xs else xs[..n]
  }
}

=== FILE: store.dfy ===
/** The database of Data/AppDbContext.cs as a value: the four tables, the
    identity counters SQL Server keeps for the generated keys, and the key,
    foreign-key and delete-behaviour rules configured in OnModelCreating. */
module Db {
  import opened Int32
  import opened Models

  /** The composite key of an OrderItem. */
  datatype ItemKey = ItemKey(orderId: int, productId: int)

  /** Keys are held as map domains, so two rows never share a key; in
      particular an order has at most one line per product. The counters are
      the next values of the Products and Orders identity columns. */
  datatype Store = Store(
    products: map<int, Product>,
    orders: map<int, Order>,
    items: map<ItemKey, OrderItem>,
    users: map<int, User>,
    nextProductId: int,
    nextOrderId: int)

  /** What an action answers. */
  datatype Reply =
    | Done                       // the change was saved
    | Created(id: int)           // a row was inserted under this key
    | NotFound                   // `return NotFound()`
    | Refused                    // the database rejected the save (a restrict rule)
    | QuantityTooSmall           // "Quantity must be at least 1!"
    | ProductMissing             // "Product not found!"
    | OnlyAvailable(available: int32) // "Only {n} available in stock!"
    | InvalidForm                // ModelState.IsValid was false
    | ImageRejected(problem: ImageProblem)
    | SaveFailed                 // an exception caught by the action's catch block
    | Unhandled                  // an exception that escapes the action
    | InvalidTransition          // a status change the corrected UpdateStatus refuses

  datatype ImageProblem = BadExtension | TooLarge

  /** An action's answer together with the database after it. */
  datatype Step = Step(reply: Reply, store: Store)

  /** The lines of an order and the lines that reference a product. */
  function LinesOfOrder(s: Store, oid: int): set<ItemKey>
  {
    set k | k in s.items && k.orderId == oid
  }

  function LinesOfProduct(s: Store, pid: int): set<ItemKey>
  {
    set k | k in s.items && k.productId == pid
  }

  /** Every key agrees with the Id it stores, is a value the identity column
      has handed out (from 1 up to below its counter),
      and every foreign key (OrderItem.OrderId, OrderItem.ProductId,
      Order.UserId) names an existing row. */
  predicate Consistent(s: Store)
  {
    && 0 < s.nextProductId && 0 < s.nextOrderId
    && (forall id :: id in s.products ==> s.products[id].id == id && 0 < id < s.nextProductId)
    && (forall id :: id in s.orders ==> s.orders[id].id == id && 0 < id < s.nextOrderId)
    && (forall id :: id in s.users ==> s.users[id].id == id)
    && (forall k :: k in s.items ==> k.orderId in s.orders && k.productId in s.products)
    && (forall id :: id in s.orders ==> s.orders[id].userId in s.users)
  }

  // ---------------------------------------------------------------------------
  // Delete behaviours

  /** Deleting an Order cascades to its OrderItems. */
  function DeleteOrder(s: Store, oid: int): (r: Step)
    ensures oid !in s.orders ==> r == Step(NotFound, s)
    ensures oid in s.orders ==> r.reply == Done
    ensures r.store.orders.Keys == s.orders.Keys - {oid}
    ensures forall id :: id in r.store.orders ==> r.store.orders[id] == s.orders[id]
    ensures oid in s.orders ==> forall k :: k in r.store.items <==> k in s.items && k.orderId != oid
    ensures forall k :: k in r.store.items ==> k in s.items && r.store.items[k] == s.items[k]
    ensures r.store.products == s.products && r.store.users == s.users
    ensures r.store.nextProductId == s.nextProductId && r.store.nextOrderId == s.nextOrderId
    ensures Consistent(s) ==> Consistent(r.store)
  {
    if oid !in s.orders then Step(NotFound, s)
    else
      Step(Done, s.(orders := s.orders - {oid},
                    items := map k | k in s.items && k.orderId != oid :: s.items[k]))
  }

  /** Deleting a Product that still has OrderItems is refused. */
  function DeleteProduct(s: Store, pid: int): (r: Step)
    ensures pid !in s.products ==> r == Step(NotFound, s)
    ensures r.reply == Refused <==> pid in s.products && exists k :: k in s.items && k.productId == pid
    ensures pid in s.products && !(exists k :: k in s.items && k.productId == pid) ==> r.reply == Done
    ensures r.reply == Refused ==> r.store == s
    ensures r.reply == Done ==> r.store == s.(products := s.products - {pid})
    ensures Consistent(s) ==> Consistent(r.store)
  {
    if pid !in s.products then Step(NotFound, s)
    else if exists k :: k in s.items && k.productId == pid then Step(Refused, s)
    else Step(Done, s.(products := s.products - {pid}))
  }

  /** Deleting a User who still has Orders is refused. */
  function DeleteUser(s: Store, uid: int): (r: Step)
    ensures uid !in s.users ==> r == Step(NotFound, s)
    ensures r.reply == Refused <==> uid in s.users && exists id :: id in s.orders && s.orders[id].userId == uid
    ensures uid in s.users && !(exists id :: id in s.orders && s.orders[id].userId == uid) ==> r.reply == Done
    ensures r.reply == Refused ==> r.store == s
    ensures r.reply == Done ==> r.store == s.(users := s.users - {uid})
    ensures Consistent(s) ==> Consistent(r.store)
  {
    if uid !in s.users then Step(NotFound, s)
    else if exists id :: id in s.orders && s.orders[id].userId == uid then Step(Refused, s)
    else Step(Done, s.(users := s.users - {uid}))
  }

  // ---------------------------------------------------------------------------
  // Seeded data

  const Day: int := 86400

  function SeedProduct(id: int, name: string, price: int, quantity: int32, count: int32,
                       purchased: int, image: string): Product
  {
    Product(id, name, price, quantity, image, "", purchased, count)
  }

  /** The seeded Products, for a model built at time `now`. Descriptions are
      left empty; prices are in cents. */
  function SeedProducts(now: int): (m: map<int, Product>)
    ensures forall id :: id in m <==> 1 <= id <= 10
    ensures forall id :: id in m ==> m[id].id == id
    ensures forall id :: id in m ==> m[id].quantity >= 0 && m[id].purchaseCount >= 0
  {
    var seedDate := now - 10 * Day;
    map[
      1 := SeedProduct(1, "ASUS TUF Gaming A15 (2024)", 129999, 15, 42, seedDate + 9 * Day, "/images/asus_tuf_gaming.png"),
      2 := SeedProduct(2, "Amazon Kindle Paperwhite Signature", 18999, 25, 38, seedDate + 7 * Day, "/images/amazon_kindle.png"),
      3 := SeedProduct(3, "Amazon Fire TV Stick 4K", 4999, 50, 65, seedDate + 8 * Day, "/images/fire_tv_4k.png"),
      4 := SeedProduct(4, "Amazon Fire TV Stick HD", 3999, 45, 52, seedDate + 6 * Day, "/images/fire_tv_hd.png"),
      5 := SeedProduct(5, "Amazon Fire TV Stick 4K Max", 5999, 35, 48, seedDate + 7 * Day, "/images/fire_tv_4k_max.png"),
      6 := SeedProduct(6, "Philips 3300 Series Espresso Machine", 69999, 12, 15, seedDate + 5 * Day, "/images/philips_3300.png"),
      7 := SeedProduct(7, "Samsung Galaxy S25 Ultra", 119999, 30, 28, seedDate + 8 * Day, "/images/galaxy_s25.png"),
      8 := SeedProduct(8, "HP Envy Inspire 7958e", 19999, 18, 22, seedDate + 6 * Day, "/images/hp_envy_printer.png"),
      9 := SeedProduct(9, "Breville Barista Express", 59999, 10, 18, seedDate + 4 * Day, "/images/breville_barista.png"),
      10 := SeedProduct(10, "BISSELL Little Green Cleaner", 12399, 20, 25, seedDate + 7 * Day, "/images/bissell_cleaner.png")
    ]
  }

  function SeedOrders(now: int): (m: map<int, Order>)
    ensures forall id :: id in m <==> id == 1 || id == 2
    ensures forall id :: id in m ==> m[id].id == id && m[id].userId == 2
    ensures forall id :: id in m ==> m[id].status in {Pending, Processing}
  {
    map[
      1 := Order(1, now - 2 * Day, Pending, 2),
      2 := Order(2, now - 1 * Day, Processing, 2)
    ]
  }

  function SeedItems(): (m: map<ItemKey, OrderItem>)
    ensures forall k :: k in m ==> k.orderId in {1, 2} && 1 <= k.productId <= 10
    ensures forall k :: k in m ==> m[k].quantity > 0
  {
    map[
      ItemKey(1, 3) := OrderItem(2, 4999),
      ItemKey(1, 4) := OrderItem(1, 3999),
      ItemKey(2, 7) := OrderItem(1, 119999)
    ]
  }

  function SeedUsers(): (m: map<int, User>)
    ensures forall id :: id in m <==> 1 <= id <= 3
    ensures forall id :: id in m ==> m[id].id == id
  {
    map[
      1 := User(1, "admin", "Manager"),
      2 := User(2, "user1", "User"),
      3 := User(3, "manager2", "Manager")
    ]
  }

  /** The database as HasData seeds it, for a model built at time `now`. */
  function Seed(now: int): (s: Store)
    ensures Consistent(s)
    ensures forall id :: id in s.products ==> s.products[id].quantity >= 0 && s.products[id].purchaseCount >= 0
    ensures forall id :: id in s.orders ==> s.orders[id].status in {Pending, Processing}
    ensures forall k :: k in s.items ==> s.items[k].quantity > 0
  {
    Store(SeedProducts(now), SeedOrders(now), SeedItems(), SeedUsers(), 11, 3)
  }

  /** Every seeded line was priced at its product's seeded price. */
  lemma SeedPricesMatch(now: int)
    ensures forall k :: k in Seed(now).items ==> Seed(now).items[k].unitPrice == Seed(now).products[k.productId].price
  {
  }
}

=== FILE: text.dfy ===
/** String comparison as the two layers of the application perform it.

    C# `==` on strings is ordinal: equal exactly when the characters are.
    A `==` inside a LINQ-to-Entities predicate is translated to SQL and
    evaluated by SQL Server instead. There `=` on character columns pads the
    shorter operand with blanks, so trailing blanks are ignored, and the
    database's default collation (SQL_Latin1_General_CP1_CI_AS) ignores the
    case of letters. */
module Text {

  /** ToLowerInvariant, and the case folding of the collation, on the ASCII
      letters. */
  function LowerChar(c: char): char
  {
    if 'A' <= c <= 'Z' then (c as int + 32) as char else c
  }

  function LowerAscii(s: string): (r: string)
    ensures |r| == |s|
    ensures forall i :: 0 <= i < |s| ==> r[i] == LowerChar(s[i])
  {
    seq(|s|, i requires 0 <= i < |s| => LowerChar(s[i]))
  }

  /** s without its trailing blanks: the longest prefix of s that does not
      end in a blank and is followed only by blanks. */
  function TrimEndBlanks(s: string): (r: string)
    ensures r <= s
    ensures |r| == 0 || r[|r| - 1] != ' '
    ensures forall i :: |r| <= i < |s| ==> s[i] == ' '
    decreases |s|
  {
    if |s| > 0 && s[|s| - 1] == ' ' then TrimEndBlanks(s[..|s| - 1]) else s
  }

  /** `a = b` evaluated by SQL Server under a case-insensitive collation. */
  predicate SqlEquals(a: string, b: string)
  {
    LowerAscii(TrimEndBlanks(a)) == LowerAscii(TrimEndBlanks(b))
  }

  predicate AllBlanks(b: string)
  {
    forall i :: 0 <= i < |b| ==> b[i] == ' '
  }

  /** Blanks appended to a string do not change what it trims to. */
  lemma {:induction false} TrimIgnoresPadding(a: string, b: string)
    requires AllBlanks(b)
    ensures TrimEndBlanks(a + b) == TrimEndBlanks(a)
    decreases |b|
  {
    if |b| > 0 {
      var c := b[..|b| - 1];
      assert (a + b)[..|a + b| - 1] == a + c;
      TrimIgnoresPadding(a, c);
    } else {
      assert a + b == a;
    }
  }

  /** SQL Server's `=` sees through trailing blanks on either side. */
  lemma SqlEqualsIgnoresPadding(a: string, b: string, pad: string)
    requires AllBlanks(pad)
    ensures SqlEquals(a + pad, b) <==> SqlEquals(a, b)
  {
    TrimIgnoresPadding(a, pad);
  }

  /** An all-blank string and the empty string compare equal. */
  lemma BlanksEqualEmpty(pad: string)
    requires AllBlanks(pad)
    ensures SqlEquals(pad, "")
  {
    TrimIgnoresPadding("", pad);
    assert "" + pad == pad;
  }
}
